=== FILE: README.md ===
# HabitFlow core, modelled in Dafny

HabitFlow is a habit tracker. Each habit has a target per day, a weekly
schedule (a list of day tokens `Sun` … `Sat`) and a number of grace credits.
This project models the logic at its core:

- **Streak state machine** (`StreakEngine`). One transition per scheduled day:
  - a completed day adds one to the streak;
  - a missed day spends a grace credit if one is left, and otherwise halves the
    streak (rounding down).
  
  Also modelled: the per-habit batch over all habits, the streak status label,
  and the health score.
- **Coaching rule engine** (`CoachingEngine`). It handles:
  - the welcome short-circuit for histories shorter than three entries;
  - five independent rules over a 14-day window and over the whole history
    (weak weekday);
  - the fixed tip-priority table.
- **Tip panel** (`CoachingTips`): a stable sort by priority, the icon table,
  and the empty state.
- **Date helpers** (`DateUtils`): weekday membership in a schedule, the
  Monday-start week, and the past and next day lists. Dates are integer day
  numbers, with day 0 = 1970-01-01, a Thursday.
- **Store reducer** (`HabitContext`): the actions over the habit list and the
  map of streak records.
- **Habit form** (`HabitForm`): defaults, `trim`-based validation, day
  toggling, and the submit step that adds the habit and seeds its streak
  record.
- **Habit card** (`HabitCard`): the clamped +/- buttons, the completion
  crossing that triggers the celebration, the streak badge, and the grace
  indicator.
- **Sign-up** (`Signup`): the two password checks, made in their order, and
  the chain that picks the banner text from a server error.

Numbers are unbounded integers. The source works with JavaScript doubles, so
where it divides, the model uses exact rationals:

- JavaScript's `Math.round` (half up) and `Math.ceil` are written out in
  `JsMath`.
- Miss rates are compared by cross-multiplication.

Time is a parameter:

- The coaching window receives `now` as local milliseconds since the epoch.
- The day lists receive `today`.

Storage reads are also parameters:

- The streak engine receives the stored record and the day's progress.
- The coaching engine receives the progress history.
- The submit handlers receive whether the save, or the registration,
  succeeded.

Three behaviours of the code worth knowing:

- **Window cutoff.** The 14-day coaching window keeps an entry when its date
  (at local midnight) is at or after *now minus 14 days*. That cutoff keeps
  the time of day. So an entry dated exactly 14 days ago is kept only at
  midnight, and every entry from 13 days ago up to today is kept
  (`CoachingEngine.WindowInDays`). It is not "the last 14 calendar days,
  inclusive".
- **Deleting a habit.** `DELETE_HABIT` removes the habit but leaves its
  streak record in the map (`HabitContext.HabitReducer`).
- **Password length.** It counts UTF-16 code units, so a character outside
  the Basic Multilingual Plane counts twice (`Signup.Utf16Length`).

## Model

| member | source | states |
|---|---|---|
| `Model.InitialStreakState` | src/components/Habits/HabitForm.jsx:76-84 | A new habit's record has streak 0, no completion date, and its full grace allowance; with a non-negative allowance it is within its habit's grace bounds |
| `DateUtils.IsScheduledForDay` | src/utils/dateUtils.js:29-36 | An empty schedule is never due; a schedule listing all seven weekday tokens is due every day |
| `DateUtils.DayTokenInjective` | src/utils/dateUtils.js:30-32 | The weekday-to-token table is one-to-one: two weekdays give the same token exactly when they are the same day |
| `DateUtils.ScheduledIffWeekdayListed` | src/utils/dateUtils.js:29-36 | A day is due exactly when the schedule lists the token of its weekday |
| `DateUtils.ScheduleIsWeekly` | src/utils/dateUtils.js:29-36 | Due-ness depends only on the weekday: a day and the same day a week later get the same answer |
| `DateUtils.DaysSinceMonday` | src/utils/dateUtils.js:40 | The offset back to the week's Monday is 0..6 and lands on a Monday |
| `DateUtils.WeekDays` | src/utils/dateUtils.js:38-43 | Seven consecutive days, the first a Monday, containing the given day |
| `DateUtils.WeekDaysSameWeek` | src/utils/dateUtils.js:38-43 | Every day of a week has that same week: the week is a partition of the days |
| `DateUtils.WeekdayShift` | src/utils/dateUtils.js:34 | Moving k days forward moves the weekday k places round the week |
| `DateUtils.PastDays` | src/utils/dateUtils.js:53-59 | `count` days (none when count <= 0), strictly ascending, consecutive, the last one today |
| `DateUtils.NextDays` | src/utils/dateUtils.js:45-51 | `count` days (none when count <= 0), strictly ascending, consecutive, the first one today |
| `DateUtils.FormatDate` | src/utils/dateUtils.js:3-8 | A string argument comes back unchanged; a date value goes to the renderer |
| `DateUtils.FormatDateIdempotent` | src/utils/dateUtils.js:3-8 | Formatting an already formatted date changes nothing |
| `JsMath.Round` | src/services/coachingEngine.js:85 | The half-up rounding of num/den: the nearest integer, ties upward |
| `JsMath.Ceil` | src/services/coachingEngine.js:26 | The least integer at or above num/den |
| `JsMath.RoundMonotone` | src/services/streakEngine.js:55 | Rounding preserves order of the rounded quantities |
| `StreakEngine.IsCompleted` | src/services/streakEngine.js:15 | Completion needs a logged entry; given one, it holds exactly when the amount reaches the target, whatever the stored flag says |
| `StreakEngine.Decay` | src/services/streakEngine.js:4 | Halving with the fraction dropped: the result is the largest r with 2r <= n |
| `StreakEngine.Advance` | src/services/streakEngine.js:12-34 | An unscheduled day changes nothing; a completed scheduled day adds 1 and records the date with grace unchanged; a miss with grace left spends one credit and keeps the streak; a miss with none halves the streak and keeps the grace |
| `StreakEngine.ProcessStreakUpdate` | src/services/streakEngine.js:6-38 | No stored record means no result; otherwise the result is the transition of the stored record |
| `StreakEngine.MissNeverRaisesStreak` | src/services/streakEngine.js:23-34 | A day that is not completed never increases the streak and never moves the last completion date |
| `StreakEngine.AdvanceKeepsGraceWithin` | src/services/streakEngine.js:25-27 | Grace stays between 0 and the habit's allowance, never grows, and the streak grows by at most one per day |
| `StreakEngine.Replay` | src/services/streakEngine.js:6-38 | Running the transition over a run of days never changes whose record it is, and a changed last completion is one of the replayed dates |
| `StreakEngine.ReplayKeepsGraceWithin` | src/services/streakEngine.js:6-38 | Over any run of days the grace bounds hold, grace never grows, and the streak grows by at most the number of days |
| `StreakEngine.ReplayOfRestDays` | src/services/streakEngine.js:12-13 | A run of unscheduled days leaves the record exactly as it was |
| `StreakEngine.ReplayOfCompletedDays` | src/services/streakEngine.js:19-22 | A run of completed scheduled days adds its length to the streak, leaves grace alone, and records the last day |
| `StreakEngine.FiveMissesScenario` | src/services/streakEngine.js:23-33 | Streak 10 with two credits, daily schedule, five misses in a row: 10, 10, 5, 2, 1 with grace 1, 0, 0, 0, 0 |
| `StreakEngine.CheckAndUpdateStreaks` | src/services/streakEngine.js:40-47 | One result per habit, in input order; the set of habits with a stored record is unchanged and records of habits not in the batch are untouched |
| `StreakEngine.BatchIsPerHabit` | src/services/streakEngine.js:40-47 | With distinct ids, each habit's result is exactly its own single-habit update on the initial store |
| `StreakEngine.BatchWritesEachRecord` | src/services/streakEngine.js:36-45 | With distinct ids, the store the batch leaves holds every new record it reports, under that habit's id |
| `StreakEngine.GetStreakStatus` | src/services/streakEngine.js:58-65 | `new` exactly without a record; `fragile` exactly when grace is 0, taking precedence; otherwise `strong` from 30 days, `building` from 7, `starting` below |
| `StreakEngine.HealthScore` | src/services/streakEngine.js:52-55 | The score is the whole number nearest to 50*g/M + 50*capped/30, halves rounded up, for either sign of M |
| `StreakEngine.HealthScoreBounds` | src/services/streakEngine.js:49-56 | With grace within a positive allowance and a capped streak, the score is between 0 and 100 |
| `StreakEngine.CalculateStreakHealth` | src/services/streakEngine.js:49-56 | No record scores 0; a zero allowance has no finite score; otherwise, within bounds, the score is 0..100 |
| `StreakEngine.HealthStreakCapped` | src/services/streakEngine.js:53 | Streak days beyond 30 add nothing to the score |
| `StreakEngine.HealthMonotoneInStreak` | src/services/streakEngine.js:52-55 | A longer streak never lowers the score |
| `StreakEngine.HealthExtremes` | src/services/streakEngine.js:52-55 | Full grace with a 30-day streak scores 100; no grace and no streak scores 0 |
| `CoachingEngine.GetTipPriority` | src/services/coachingEngine.js:117-127 | Known kinds rank 1..6, and a kind ranks 99 exactly when it is unknown |
| `CoachingEngine.PriorityOrder` | src/services/coachingEngine.js:117-127 | The display order: grace depleted before reduce target, before weak day, before partial pattern, before celebration, before welcome, before any other kind |
| `CoachingEngine.PriorityIdentifiesKind` | src/services/coachingEngine.js:118-126 | Two tips have equal priority exactly when they are of the same kind |
| `CoachingEngine.RecentProgress` | src/services/coachingEngine.js:67-70 | Each entry inside the window is kept as many times as the history holds it, and every other entry is dropped |
| `CoachingEngine.WindowInDays` | src/services/coachingEngine.js:4 | At a time strictly after midnight, the window holds exactly the entries dated from 13 days back onward; at midnight it also holds the one from 14 days back |
| `CoachingEngine.CountMissed` | src/services/coachingEngine.js:72-74 | No more than the entries; zero exactly when none is below target, all exactly when all are |
| `CoachingEngine.CountPartial` | src/services/coachingEngine.js:76-80 | No more than the entries; zero exactly when none has progress strictly between 0 and the target |
| `CoachingEngine.PartialAtMostMissed` | src/services/coachingEngine.js:72-80 | Every partial day is a missed day: partial count <= missed count, and the difference is the zero-progress misses |
| `CoachingEngine.AverageProgress` | src/services/coachingEngine.js:82-86 | 0 for an empty window, else the mean rounded half up |
| `CoachingEngine.ScanWeekdays` | src/services/coachingEngine.js:101-113 | Scanning weekdays from a valid bar, the result is None only if no weekday is flagged, and otherwise a weakest flagged weekday, the earliest on ties |
| `CoachingEngine.FindWeakDay` | src/services/coachingEngine.js:88-115 | None exactly when no weekday has at least 2 entries and a miss rate above one half; otherwise the flagged weekday with the highest rate, the earliest on ties |
| `CoachingEngine.ReducedTarget` | src/services/coachingEngine.js:26 | The proposed target is the ceiling of three quarters of the current one |
| `CoachingEngine.Analyze` | src/services/coachingEngine.js:19-56 | Misses, partial days and the average come from the recent window; the weak day comes from the whole history |
| `CoachingEngine.ApplyRules` | src/services/coachingEngine.js:21-64 | At most five tips of distinct kinds; a tip is present exactly when its rule fires |
| `CoachingEngine.GenerateCoachingTips` | src/services/coachingEngine.js:6-65 | Under 3 entries: exactly one welcome tip. Otherwise at most five tips, none welcome, distinct priorities, with payloads: reduced target, weakest day, window average, current streak |
| `CoachingEngine.ReduceTargetRuleFiresExactly` | src/services/coachingEngine.js:22-28 | The reduce-target tip appears exactly when the window holds at least 3 misses |
| `CoachingEngine.PartialRuleFiresExactly` | src/services/coachingEngine.js:56-62 | The partial-pattern tip appears exactly when the window holds at least 5 partial days |
| `CoachingEngine.StreakRulesFireExactly` | src/services/coachingEngine.js:40-53 | Grace-depleted appears exactly for a record with no grace; celebration exactly for a record with a streak of 7 or more |
| `CoachingEngine.WeakDayRuleFiresExactly` | src/services/coachingEngine.js:30-37 | The weak-day tip appears exactly when some weekday is flagged, and names the weakest |
| `CoachingEngine.GraceTipIffFragile` | src/services/coachingEngine.js:40-45 | The grace-depleted tip appears exactly when the streak status of the same record is `fragile` |
| `CoachingEngine.PartialPatternScenario` | src/services/coachingEngine.js:76-86 | Target 10, progress 3, 5, 0, 12, 4, 6: four partial days; one more at 2 makes five, with rounded mean 5 |
| `CoachingTips.Insert` | src/components/Coaching/CoachingTips.jsx:13-15 | Inserting adds exactly the one tip: the result is the input plus the new tip, as a multiset and by membership |
| `CoachingTips.InsertKeepsSorted` | src/components/Coaching/CoachingTips.jsx:13-15 | Inserting into a priority-sorted list keeps it sorted |
| `CoachingTips.InsertWithPriority` | src/components/Coaching/CoachingTips.jsx:13-15 | Insertion puts the new tip before the existing tips of its own priority, so relative order within a priority is kept |
| `CoachingTips.SortByPriority` | src/components/Coaching/CoachingTips.jsx:13-15 | Sorted by non-decreasing priority, a permutation of the input, and stable: for each priority the tips keep their input order |
| `CoachingTips.GetIcon` | src/components/Coaching/CoachingTips.jsx:17-27 | The default icon is given exactly to the unknown kinds |
| `CoachingTips.IconIdentifiesKind` | src/components/Coaching/CoachingTips.jsx:18-25 | For a known kind, two tips share an icon exactly when they are of the same kind |
| `CoachingTips.RenderTips` | src/components/Coaching/CoachingTips.jsx:5-37 | Empty state exactly for no list or an empty list; otherwise one card per tip, in priority-sorted order, each with its icon |
| `CoachingTips.SortExample` | src/components/Coaching/CoachingTips.jsx:13-15 | Celebration, grace-depleted and weak-day sort to grace-depleted, weak-day, celebration |
| `HabitContext.InitialState` | src/context/HabitContext.jsx:6-12 | No habits, no streak records, loading, no error |
| `HabitContext.ReplaceHabit` | src/context/HabitContext.jsx:22-28 | Same length and order; exactly the entries with the payload's id become the payload |
| `HabitContext.RemoveHabit` | src/context/HabitContext.jsx:30-34 | The length drops by exactly the number of habits carrying the id |
| `HabitContext.RemoveKeepsOthers` | src/context/HabitContext.jsx:33 | Removal keeps exactly the habits with another id |
| `HabitContext.RemoveAppend` | src/context/HabitContext.jsx:33 | Removal works piecewise over concatenation, so the kept habits stay in order |
| `HabitContext.StreakMapKeys` | src/context/HabitContext.jsx:36-39 | The map has a key exactly for each habit id that has a record in the list |
| `HabitContext.StreakMapLastWins` | src/context/HabitContext.jsx:36-39 | For repeated ids the last record in the list is the one kept |
| `HabitContext.HabitReducer` | src/context/HabitContext.jsx:14-62 | Each action changes only its own fields: set/add/update/delete habits, streak map replace or single-key update with every other key kept, date, loading, error (also stopping loading); unknown actions change nothing |
| `HabitContext.AddThenDelete` | src/context/HabitContext.jsx:19-34 | Adding a habit with a fresh id and then deleting that id restores the state |
| `HabitContext.UpdateIdempotent` | src/context/HabitContext.jsx:22-28 | Updating with the same habit twice is the same as once |
| `HabitContext.EditsKeepHabitsTracked` | src/context/HabitContext.jsx:22-60 | Updating or deleting habits and the other non-replacing actions keep every listed habit with a streak record |
| `HabitForm.DefaultForm` | src/components/Habits/HabitForm.jsx:13-20 | Monday to Friday, target 1, two grace credits, empty name and unit, any time |
| `HabitForm.Trim` | src/components/Habits/HabitForm.jsx:55-57 | The result is a stretch of the input with only white space around it, and it neither starts nor ends with white space |
| `HabitForm.TrimEmptyIffBlank` | src/components/Habits/HabitForm.jsx:55-57 | A string trims to nothing exactly when all of it is white space |
| `HabitForm.Validate` | src/components/Habits/HabitForm.jsx:53-61 | Each field error is present exactly when its check fails, with that check's message |
| `HabitForm.ValidIff` | src/components/Habits/HabitForm.jsx:53-61 | The form is valid exactly when name and unit have visible text, the target is at least 1, and a day is chosen |
| `HabitForm.DefaultFormErrors` | src/components/Habits/HabitForm.jsx:13-20 | The untouched form fails on name and unit only |
| `HabitForm.ToggleDay` | src/components/Habits/HabitForm.jsx:35-42 | A chosen day is removed (every copy, nothing else, other days keeping their copies); an unchosen day is appended |
| `HabitForm.ToggleKeepsNoDuplicates` | src/components/Habits/HabitForm.jsx:35-42 | Toggling a day keeps a schedule free of repeated days |
| `HabitForm.Without` | src/components/Habits/HabitForm.jsx:39 | The filter keeps every copy of the other days and none of the dropped one, never grows, and keeps a repetition-free list repetition-free |
| `HabitForm.WithoutAppend` | src/components/Habits/HabitForm.jsx:39 | Filtering distributes over concatenation, so the kept days stay in their order |
| `HabitForm.ToggleTwiceRestores` | src/components/Habits/HabitForm.jsx:35-42 | Toggling the same day twice gives back the same set of days |
| `HabitForm.ToggleOnThenOff` | src/components/Habits/HabitForm.jsx:35-42 | Adding an unchosen day and removing it again gives back the exact list |
| `HabitForm.HandleSubmit` | src/components/Habits/HabitForm.jsx:63-89 | Invalid form: only the errors, store untouched. Failed save: exactly the submit message, store untouched. Success: errors cleared, habit appended, its streak record seeded, every other part of the store kept, navigation home |
| `HabitForm.SubmitKeepsHabitsTracked` | src/components/Habits/HabitForm.jsx:73-85 | A successful submit keeps every habit tracked and the new record starts at streak 0 with full grace |
| `HabitCard.Step` | src/components/Habits/HabitCard.jsx:41-67 | + gives one more, or twice the target when that is less; - gives one less, or 0 when that is more |
| `HabitCard.OnClick` | src/components/Habits/HabitCard.jsx:40-75 | The new progress is the clamped step; the written record carries it, completed exactly when it reaches the target; the celebration runs exactly on a + click that crosses the target |
| `HabitCard.ClicksStayInRange` | src/components/Habits/HabitCard.jsx:41-67 | From progress within 0..2*target, any run of clicks stays within it |
| `HabitCard.CelebrateExactlyAtTarget` | src/components/Habits/HabitCard.jsx:42-47 | With a positive target, only the + click from one below the target celebrates |
| `HabitCard.WrittenFlagMatchesEngine` | src/components/Habits/HabitCard.jsx:58-74 | The completed flag written agrees with the streak engine's own completion test on that record |
| `HabitCard.IncrementAboveCapLowers` | src/components/Habits/HabitCard.jsx:41 | A + click on a stored value above twice the target pulls progress down to the cap |
| `HabitCard.StreakBadge` | src/components/Habits/HabitCard.jsx:78-85 | Legend from 30, Master from 14, Warrior from 7, Hot from 3, none below |
| `HabitCard.BadgeMonotone` | src/components/Habits/HabitCard.jsx:78-85 | A longer streak never shows a lower badge |
| `HabitCard.LabelShownIffNonEmpty` | src/components/Habits/HabitCard.jsx:108 | The label is shown exactly when the badge has a non-empty label |
| `HabitCard.ShowsBadgeLabel` | src/components/Habits/HabitCard.jsx:108 | The label shows only with a streak record, and exactly when some badge tier is reached |
| `HabitCard.ShowsGraceIndicator` | src/components/Habits/HabitCard.jsx:130 | Never without a record; always once a positive allowance is spent down to 0; never while grace is at the full allowance |
| `HabitCard.GraceIndicatorAfterMiss` | src/components/Habits/HabitCard.jsx:130 | The indicator is hidden for a fresh record and without a record, and shown after a due-day miss covered by grace |
| `Signup.Utf16Length` | src/components/Auth/Signup.jsx:34 | Between the number of characters and twice that, equal exactly when no character lies above U+FFFF |
| `Signup.PreCheck` | src/components/Auth/Signup.jsx:28-38 | Mismatch reported first; then too short below 8 UTF-16 units; passes exactly when both checks hold |
| `Signup.FourAstralCharsSuffice` | src/components/Auth/Signup.jsx:34 | Four characters above U+FFFF already pass the length check |
| `Signup.FirstAsText` | src/components/Auth/Signup.jsx:59-63 | A string field gives its first character, an array its first item, an empty array `undefined` |
| `Signup.Banner` | src/components/Auth/Signup.jsx:65 | A banner shows exactly for a truthy value, and a string shows itself |
| `Signup.FirstValue` | src/components/Auth/Signup.jsx:66-67 | `non_field_errors[0]` as a value: undefined exactly for an empty array, else a string's first character or an array's first item |
| `Signup.ErrorBanner` | src/components/Auth/Signup.jsx:53-75 | A non-empty text body shows itself; without a body the error's message, or else the generic text |
| `Signup.FirstFilledFieldWins` | src/components/Auth/Signup.jsx:58-70 | Email, username, password, detail, non-field errors (whose first element may itself be falsy), then the JSON dump: the first filled one decides |
| `Signup.BannerMissingOnlyForFalsyNonFieldError` | src/components/Auth/Signup.jsx:53-87 | A refused registration shows no banner exactly when the only filled field is a non-field-errors array whose first element is missing or empty |
| `Signup.HandleSubmit` | src/components/Auth/Signup.jsx:22-79 | `register` is called exactly when both checks pass; navigation exactly on success; the banner otherwise comes from the check or the error chain |
| `Signup.MismatchReportedFirst` | src/components/Auth/Signup.jsx:28-32 | Mismatched passwords are reported even when also too short, and nothing is sent |

## Left out

- Persistence (IndexedDB). Stored records, progress and the save outcome are
  parameters. `addHabit` also writes the same initial record
  (src/services/database.js:39-44) as `Model.InitialStreakState`.
- The network, authentication and `register` itself. The registration outcome
  is a parameter.
- The `await` sequencing, React effects, component loading flags (Signup,
  HabitCard), and timers (confetti, XP popup, the celebration class).
- Calendar arithmetic of `parseISO`, `getDay`, `startOfWeek`, `addDays` and
  `subDays`. Dates are day numbers. Time zones and daylight saving are not
  modelled.
- `formatDate` on a `Date` value. The `yyyy-MM-dd` rendering is a parameter.
- Tip and error message wording. Tips carry their kind and numeric payload.
  Field error messages are kept as text.
- The weekday name in the weak-day message. The tip carries the weekday
  number.
- Unknown tip kinds that coincide with `Object.prototype` keys. For those,
  `getTipPriority` and `getIcon` would read inherited properties. The model
  treats every unknown kind as unknown.
- `JSON.stringify` of an error body. The dump is a field of the body and is
  shown as it is. An object's dump is never empty, so it always shows a banner.
- Tips whose kind the engine does not produce are `OtherTip`. Their kind is a
  string outside the six known names (`CoachingEngine.OtherKind`). A tip with a
  known kind name always carries that kind's own constructor.
- `Signup.FirstAsText`: for a string field, the model takes its first
  character, not its first UTF-16 code unit. The two differ for a character
  above U+FFFF.
- `parseInt` in the number inputs and the template loader of the form. The
  form holds integers.
- Grace-credit replenishment. No code does it.
- Floating point. Health and miss rates are exact rationals, with half-up
  rounding where the source rounds. Near rounding boundaries the source's
  doubles could round differently.
- Charts, insights, achievements, settings, navigation and routing.

=== FILE: coaching_engine.dfy ===
/**
 * The coaching rule engine: from a habit's progress history and its streak
 * record it derives a handful of tips. The history is passed in (the source
 * reads it from storage) and so is the current time.
 */
module CoachingEngine {
  import opened Options
  import opened Model
  import opened DateUtils
  import JsMath
  import StreakEngine

  /** How many days back the recent-activity rules look. */
  const AnalysisWindowDays := 14
  /** Milliseconds in a day: the clock is local milliseconds since 1970-01-01. */
  const MsPerDay := 86400000

  /** The `type` strings of the tips the engine produces. */
  const KnownKinds: set<string> :=
    {"grace_depleted", "reduce_target", "weak_day", "partial_pattern", "celebration", "welcome"}

  /** A tip type string the engine does not produce. */
  type OtherKind = k: string | k !in KnownKinds witness "other"

  /** A coaching tip: its kind with the figures its message quotes. */
  datatype Tip =
    | GraceDepletedTip
    | ReduceTargetTip(missed: nat, currentTarget: int, proposedTarget: int)
    | WeakDayTip(day: Weekday)
    | PartialPatternTip(averageProgress: int)
    | CelebrationTip(streak: nat)
    | WelcomeTip
    | OtherTip(kind: OtherKind)   // a tip of any kind the engine does not produce

  /** `getTipPriority`: the fixed display rank of each kind, unknown kinds last. */
  function GetTipPriority(t: Tip): (p: nat)
    ensures 1 <= p <= 6 || p == 99
    ensures p == 99 <==> t.OtherTip?
  {
    match t
    case GraceDepletedTip => 1
    case ReduceTargetTip(_, _, _) => 2
    case WeakDayTip(_) => 3
    case PartialPatternTip(_) => 4
    case CelebrationTip(_) => 5
    case WelcomeTip => 6
    case OtherTip(_) => 99
  }

  predicate SameKind(a: Tip, b: Tip) {
    match a
    case GraceDepletedTip => b.GraceDepletedTip?
    case ReduceTargetTip(_, _, _) => b.ReduceTargetTip?
    case WeakDayTip(_) => b.WeakDayTip?
    case PartialPatternTip(_) => b.PartialPatternTip?
    case CelebrationTip(_) => b.CelebrationTip?
    case WelcomeTip => b.WelcomeTip?
    case OtherTip(_) => b.OtherTip?
  }

  /**
   * The display order: grace depleted, reduce target, weak day, partial
   * pattern, celebration, welcome, and any other kind last.
   */
  lemma PriorityOrder(m: nat, cur: int, prop: int, w: Weekday, avg: int, n: nat, k: OtherKind)
    ensures GetTipPriority(GraceDepletedTip) < GetTipPriority(ReduceTargetTip(m, cur, prop))
    ensures GetTipPriority(ReduceTargetTip(m, cur, prop)) < GetTipPriority(WeakDayTip(w))
    ensures GetTipPriority(WeakDayTip(w)) < GetTipPriority(PartialPatternTip(avg))
    ensures GetTipPriority(PartialPatternTip(avg)) < GetTipPriority(CelebrationTip(n))
    ensures GetTipPriority(CelebrationTip(n)) < GetTipPriority(WelcomeTip)
    ensures GetTipPriority(WelcomeTip) < GetTipPriority(OtherTip(k))
  {
  }

  /** The priority tells the kinds apart: equal priority means the same kind. */
  lemma PriorityIdentifiesKind(a: Tip, b: Tip)
    ensures GetTipPriority(a) == GetTipPriority(b) <==> SameKind(a, b)
  {
  }

  // ---------------------------------------------------------------- window

  /**
   * `getRecentProgress` keeps entries whose local midnight is not before the
   * cutoff, and the cutoff is `now` minus 14 days, time of day included.
   */
  predicate InWindow(e: DailyProgress, now: int) {
    e.date * MsPerDay >= now - AnalysisWindowDays * MsPerDay
  }

  function RecentProgress(history: seq<DailyProgress>, now: int): (r: seq<DailyProgress>)
    ensures |r| <= |history|
    ensures forall e :: e in r <==> e in history && InWindow(e, now)
    ensures forall e :: multiset(r)[e] == if InWindow(e, now) then multiset(history)[e] else 0
    decreases |history|
  {
    if history == [] then []
    else
      var rest := RecentProgress(history[1..], now);
      assert history == [history[0]] + history[1..];
      (if InWindow(history[0], now) then [history[0]] else []) + rest
  }

  /**
   * In day terms: everything from 13 days ago on is recent, nothing older than
   * 14 days is, and the entry of exactly 14 days ago only at the stroke of midnight.
   */
  lemma WindowInDays(e: DailyProgress, today: Day, msIntoDay: int)
    requires 0 <= msIntoDay < MsPerDay
    ensures InWindow(e, today * MsPerDay + msIntoDay) <==>
              e.date > today - AnalysisWindowDays || (e.date == today - AnalysisWindowDays && msIntoDay == 0)
  {
    var now := today * MsPerDay + msIntoDay;
    if e.date > today - AnalysisWindowDays {
      assert e.date * MsPerDay >= (today - 13) * MsPerDay;
    } else if e.date < today - AnalysisWindowDays {
      assert e.date * MsPerDay <= (today - 15) * MsPerDay;
    }
  }

  // ---------------------------------------------------------------- counts

  predicate Missed(e: DailyProgress, target: int) {
    e.progress < target
  }

  predicate Partial(e: DailyProgress, target: int) {
    0 < e.progress < target
  }

  /** `countMissedDays`: entries below target. */
  function CountMissed(entries: seq<DailyProgress>, target: int): (n: nat)
    ensures n <= |entries|
    ensures n == 0 <==> forall i :: 0 <= i < |entries| ==> !Missed(entries[i], target)
    ensures n == |entries| <==> forall i :: 0 <= i < |entries| ==> Missed(entries[i], target)
    decreases |entries|
  {
    if entries == [] then 0
    else (if Missed(entries[0], target) then 1 else 0) + CountMissed(entries[1..], target)
  }

  /** `countPartialCompletions`: entries with some, but not enough, progress. */
  function CountPartial(entries: seq<DailyProgress>, target: int): (n: nat)
    ensures n <= |entries|
    ensures n == 0 <==> forall i :: 0 <= i < |entries| ==> !Partial(entries[i], target)
    decreases |entries|
  {
    if entries == [] then 0
    else (if Partial(entries[0], target) then 1 else 0) + CountPartial(entries[1..], target)
  }

  /** Every partial day is a missed day, so there are never more partial days than misses. */
  lemma {:induction false} PartialAtMostMissed(entries: seq<DailyProgress>, target: int)
    ensures CountPartial(entries, target) <= CountMissed(entries, target)
    ensures CountMissed(entries, target) - CountPartial(entries, target) ==
            CountZero(entries, target)
    decreases |entries|
  {
    if entries != [] {
      PartialAtMostMissed(entries[1..], target);
    }
  }

  /** Entries below target with no progress at all. */
  function CountZero(entries: seq<DailyProgress>, target: int): nat
    decreases |entries|
  {
    if entries == [] then 0
    else (if entries[0].progress == 0 && 0 < target then 1 else 0) + CountZero(entries[1..], target)
  }

  function SumProgress(entries: seq<DailyProgress>): nat
    decreases |entries|
  {
    if entries == [] then 0 else entries[0].progress + SumProgress(entries[1..])
  }

  /** `calculateAverageProgress`: the mean progress rounded half up, 0 when empty. */
  function AverageProgress(entries: seq<DailyProgress>): (a: int)
    ensures entries == [] ==> a == 0
    ensures entries != [] ==>
              2 * |entries| * a <= 2 * SumProgress(entries) + |entries| < 2 * |entries| * a + 2 * |entries|
  {
    if entries == [] then 0 else JsMath.Round(SumProgress(entries), |entries|)
  }

  // ---------------------------------------------------------------- weak day

  /** Entries of the whole history falling on weekday `w`. */
  function DayCount(history: seq<DailyProgress>, w: Weekday): nat
    decreases |history|
  {
    if history == [] then 0
    else (if WeekdayOf(history[0].date) == w then 1 else 0) + DayCount(history[1..], w)
  }

  /** Those of them below target. */
  function DayMisses(history: seq<DailyProgress>, target: int, w: Weekday): (n: nat)
    ensures n <= DayCount(history, w)
    decreases |history|
  {
    if history == [] then 0
    else (if WeekdayOf(history[0].date) == w && Missed(history[0], target) then 1 else 0)
         + DayMisses(history[1..], target, w)
  }

  /** A weekday seen at least twice with more than half of its entries missed. */
  predicate Flagged(history: seq<DailyProgress>, target: int, w: Weekday) {
    DayCount(history, w) >= 2 && 2 * DayMisses(history, target, w) > DayCount(history, w)
  }

  /** Miss rate of `v` at most that of `w`, compared by cross-multiplying. */
  predicate RateAtMost(history: seq<DailyProgress>, target: int, v: Weekday, w: Weekday) {
    DayMisses(history, target, v) * DayCount(history, w) <= DayMisses(history, target, w) * DayCount(history, v)
  }

  predicate RateBelow(history: seq<DailyProgress>, target: int, v: Weekday, w: Weekday) {
    DayMisses(history, target, v) * DayCount(history, w) < DayMisses(history, target, w) * DayCount(history, v)
  }

  /** The scan's current bar as a fraction: 1/2 at first, then the best day's rate. */
  function BarMisses(history: seq<DailyProgress>, target: int, best: Option<Weekday>): nat {
    if best.None? then 1 else DayMisses(history, target, best.value)
  }

  function BarCount(history: seq<DailyProgress>, target: int, best: Option<Weekday>): nat {
    if best.None? then 2 else DayCount(history, best.value)
  }

  /** What the scan keeps true of the weekdays before `i`. */
  predicate ScanInvariant(history: seq<DailyProgress>, target: int, i: int, best: Option<Weekday>) {
    var bm, bc := BarMisses(history, target, best), BarCount(history, target, best);
    && 0 <= i <= 7
    && (best.Some? ==> best.value < i && DayCount(history, best.value) >= 2 && 2 * bm > bc)
    && (forall w: Weekday :: w < i && DayCount(history, w) >= 2 ==>
          DayMisses(history, target, w) * bc <= bm * DayCount(history, w))
    && (best.Some? ==> forall w: Weekday :: w < best.value && DayCount(history, w) >= 2 ==>
          DayMisses(history, target, w) * bc < bm * DayCount(history, w))
  }

  /** The condition of the weak-day result: flagged, worst rate, earliest of the worst. */
  predicate WeakestDay(history: seq<DailyProgress>, target: int, d: Weekday) {
    && Flagged(history, target, d)
    && (forall w: Weekday :: Flagged(history, target, w) ==> RateAtMost(history, target, w, d))
    && (forall w: Weekday :: w < d && Flagged(history, target, w) ==> RateBelow(history, target, w, d))
  }

  /** a/b <= c/d < e/f gives a/b < e/f (all denominators positive). */
  lemma RateLtTrans(a: nat, b: nat, c: nat, d: nat, e: nat, f: nat)
    requires b > 0 && d > 0 && f > 0
    requires a * d <= c * b && c * f < e * d
    ensures a * f < e * b
  {
    JsMath.MulLeft(f, a * d, c * b);
    assert b * (c * f) < b * (e * d) by {
      MulLeftStrict(b, c * f, e * d);
    }
    assert d * (a * f) < d * (e * b) by {
      assert d * (a * f) == f * (a * d);
      assert f * (c * b) == b * (c * f);
      assert b * (e * d) == d * (e * b);
    }
    JsMath.MulCancelLt(d, a * f, e * b);
  }

  lemma MulLeftStrict(k: int, x: int, y: int)
    requires k > 0 && x < y
    ensures k * x < k * y
  {
  }

  /**
   * The scan of `findWeakDay` over weekdays `i` .. 6 (Sunday first): a day
   * replaces the current bar only if its miss rate is strictly higher.
   */
  function ScanWeekdays(history: seq<DailyProgress>, target: int, i: int, best: Option<Weekday>): (r: Option<Weekday>)
    requires ScanInvariant(history, target, i, best)
    ensures r.None? ==> forall w: Weekday :: !Flagged(history, target, w)
    ensures r.Some? ==> WeakestDay(history, target, r.value)
    decreases 7 - i
  {
    var bm, bc := BarMisses(history, target, best), BarCount(history, target, best);
    if i == 7 then
      assert forall w: Weekday :: DayCount(history, w) >= 2 ==>
        DayMisses(history, target, w) * bc <= bm * DayCount(history, w);
      best
    else
      var c, m := DayCount(history, i), DayMisses(history, target, i);
      if c >= 2 && m * bc > bm * c then
        assert 2 * m > c by {
          RateLtTrans(1, 2, bm, bc, m, c);
        }
        forall w: Weekday | w < i && DayCount(history, w) >= 2
          ensures DayMisses(history, target, w) * c < m * DayCount(history, w)
        {
          RateLtTrans(DayMisses(history, target, w), DayCount(history, w), bm, bc, m, c);
        }
        ScanWeekdays(history, target, i + 1, Some(i))
      else
        ScanWeekdays(history, target, i + 1, best)
  }

  /**
   * `findWeakDay`: over the whole history, the weekday with the highest miss
   * rate above one half among those seen at least twice; ties go to the
   * earliest weekday from Sunday; None when no weekday qualifies.
   */
  function FindWeakDay(history: seq<DailyProgress>, target: int): (r: Option<Weekday>)
    ensures r.None? <==> forall w: Weekday :: !Flagged(history, target, w)
    ensures r.Some? ==> WeakestDay(history, target, r.value)
  {
    ScanWeekdays(history, target, 0, None)
  }

  // ---------------------------------------------------------------- rules

  /** `Math.ceil(target * 0.75)`, the reduced target the first rule proposes. */
  function ReducedTarget(target: int): (p: int)
    ensures 4 * (p - 1) < 3 * target <= 4 * p
  {
    JsMath.Ceil(3 * target, 4)
  }

  /** The tip a rule contributes: the tip when the rule fires, nothing otherwise. */
  function Rule(fires: bool, t: Tip): seq<Tip> {
    if fires then [t] else []
  }

  predicate DistinctPriorities(tips: seq<Tip>) {
    forall i, j :: 0 <= i < j < |tips| ==> GetTipPriority(tips[i]) != GetTipPriority(tips[j])
  }

  /** Adding a rule of a kind not yet present keeps the priorities distinct. */
  lemma AddRule(tips: seq<Tip>, fires: bool, t: Tip)
    requires DistinctPriorities(tips)
    requires forall x :: x in tips ==> GetTipPriority(x) != GetTipPriority(t)
    ensures DistinctPriorities(tips + Rule(fires, t))
    ensures forall x :: x in tips + Rule(fires, t) <==> x in tips || (fires && x == t)
    ensures |tips + Rule(fires, t)| <= |tips| + 1
  {
    var r := tips + Rule(fires, t);
    forall i, j | 0 <= i < j < |r|
      ensures GetTipPriority(r[i]) != GetTipPriority(r[j])
    {
      if j >= |tips| {
        assert r[j] == t && r[i] in tips;
      }
    }
  }

  /** The figures the rules look at, gathered from the history. */
  datatype Analysis = Analysis(
    target: int,
    missed: nat,              // recent entries below target
    partial: nat,             // recent entries with some but not enough progress
    average: int,             // rounded mean progress of the recent entries
    weakDay: Option<Weekday>) // weakest weekday over all history

  function Analyze(h: Habit, history: seq<DailyProgress>, now: int): (a: Analysis)
    ensures a.target == h.targetValue
    ensures a.missed == CountMissed(RecentProgress(history, now), h.targetValue)
    ensures a.partial == CountPartial(RecentProgress(history, now), h.targetValue)
    ensures a.average == AverageProgress(RecentProgress(history, now))
    ensures a.weakDay == FindWeakDay(history, h.targetValue)
  {
    var recent := RecentProgress(history, now);
    Analysis(h.targetValue, CountMissed(recent, h.targetValue), CountPartial(recent, h.targetValue),
             AverageProgress(recent), FindWeakDay(history, h.targetValue))
  }

  /** The five rules in the source's order: misses, weak day, grace, celebration, partial days. */
  function ApplyRules(a: Analysis, state: Option<StreakState>): (tips: seq<Tip>)
    ensures |tips| <= 5 && DistinctPriorities(tips)
    ensures forall t :: t in tips <==>
              || (a.missed >= 3 && t == ReduceTargetTip(a.missed, a.target, ReducedTarget(a.target)))
              || (a.weakDay.Some? && t == WeakDayTip(a.weakDay.value))
              || (state.Some? && state.value.graceRemaining == 0 && t == GraceDepletedTip)
              || (state.Some? && state.value.currentStreak >= 7 && t == CelebrationTip(state.value.currentStreak))
              || (a.partial >= 5 && t == PartialPatternTip(a.average))
  {
    var t1 := ReduceTargetTip(a.missed, a.target, ReducedTarget(a.target));
    var t2 := WeakDayTip(a.weakDay.GetOr(0));
    var t4 := CelebrationTip(if state.Some? then state.value.currentStreak else 0);
    var t5 := PartialPatternTip(a.average);
    var f3 := state.Some? && state.value.graceRemaining == 0;
    var f4 := state.Some? && state.value.currentStreak >= 7;
    FiveRules(a.missed >= 3, t1, a.weakDay.Some?, t2, f3, GraceDepletedTip, f4, t4, a.partial >= 5, t5);
    Rule(a.missed >= 3, t1) + Rule(a.weakDay.Some?, t2) + Rule(f3, GraceDepletedTip) + Rule(f4, t4) +
    Rule(a.partial >= 5, t5)
  }

  /** Five rules of five different priorities give at most five tips of distinct priorities. */
  lemma FiveRules(f1: bool, t1: Tip, f2: bool, t2: Tip, f3: bool, t3: Tip, f4: bool, t4: Tip, f5: bool, t5: Tip)
    requires GetTipPriority(t1) == 2 && GetTipPriority(t2) == 3 && GetTipPriority(t3) == 1
    requires GetTipPriority(t4) == 5 && GetTipPriority(t5) == 4
    ensures var r := Rule(f1, t1) + Rule(f2, t2) + Rule(f3, t3) + Rule(f4, t4) + Rule(f5, t5);
            |r| <= 5 && DistinctPriorities(r)
  {
    var s1 := Rule(f1, t1);
    assert DistinctPriorities(s1);
    assert forall x :: x in s1 ==> GetTipPriority(x) == 2;
    AddRule(s1, f2, t2);
    var s2 := s1 + Rule(f2, t2);
    assert forall x :: x in s2 ==> GetTipPriority(x) in {2, 3};
    AddRule(s2, f3, t3);
    var s3 := s2 + Rule(f3, t3);
    assert forall x :: x in s3 ==> GetTipPriority(x) in {1, 2, 3};
    AddRule(s3, f4, t4);
    var s4 := s3 + Rule(f4, t4);
    assert forall x :: x in s4 ==> GetTipPriority(x) in {1, 2, 3, 5};
    AddRule(s4, f5, t5);
  }

  /**
   * `generateCoachingTips` with the history and clock passed in. Fewer than
   * three entries give the welcome tip alone, whatever the streak record;
   * otherwise each of the five rules adds at most one tip.
   */
  function GenerateCoachingTips(h: Habit, state: Option<StreakState>, history: seq<DailyProgress>, now: int): (tips: seq<Tip>)
    ensures |history| < 3 ==> tips == [WelcomeTip]
    ensures |history| >= 3 ==> |tips| <= 5 && forall t :: t in tips ==> !t.WelcomeTip? && !t.OtherTip?
    ensures DistinctPriorities(tips)
    ensures forall t :: t in tips && t.ReduceTargetTip? ==>
              t.currentTarget == h.targetValue && t.proposedTarget == ReducedTarget(h.targetValue) && t.missed >= 3
    ensures forall t :: t in tips && t.WeakDayTip? ==> FindWeakDay(history, h.targetValue) == Some(t.day)
    ensures forall t :: t in tips && t.PartialPatternTip? ==>
              t.averageProgress == AverageProgress(RecentProgress(history, now))
    ensures forall t :: t in tips && t.CelebrationTip? ==> state.Some? && t.streak == state.value.currentStreak
  {
    if |history| < 3 then [WelcomeTip]
    else ApplyRules(Analyze(h, history, now), state)
  }

  /** The reduce-target tip is present exactly when at least three recent days were missed. */
  lemma ReduceTargetRuleFiresExactly(h: Habit, state: Option<StreakState>, history: seq<DailyProgress>, now: int)
    requires |history| >= 3
    ensures var tips := GenerateCoachingTips(h, state, history, now);
            (exists t :: t in tips && t.ReduceTargetTip?) <==>
              CountMissed(RecentProgress(history, now), h.targetValue) >= 3
  {
    var a := Analyze(h, history, now);
    assert GenerateCoachingTips(h, state, history, now) == ApplyRules(a, state);
    ReduceRuleOnAnalysis(a, state);
  }

  lemma ReduceRuleOnAnalysis(a: Analysis, state: Option<StreakState>)
    ensures (exists t :: t in ApplyRules(a, state) && t.ReduceTargetTip?) <==> a.missed >= 3
  {
    if a.missed >= 3 {
      assert ReduceTargetTip(a.missed, a.target, ReducedTarget(a.target)) in ApplyRules(a, state);
    }
  }

  /** The partial-pattern tip is present exactly when at least five recent days were partial. */
  lemma PartialRuleFiresExactly(h: Habit, state: Option<StreakState>, history: seq<DailyProgress>, now: int)
    requires |history| >= 3
    ensures var tips := GenerateCoachingTips(h, state, history, now);
            (exists t :: t in tips && t.PartialPatternTip?) <==>
              CountPartial(RecentProgress(history, now), h.targetValue) >= 5
  {
    var a := Analyze(h, history, now);
    assert GenerateCoachingTips(h, state, history, now) == ApplyRules(a, state);
    PartialRuleOnAnalysis(a, state);
  }

  lemma PartialRuleOnAnalysis(a: Analysis, state: Option<StreakState>)
    ensures (exists t :: t in ApplyRules(a, state) && t.PartialPatternTip?) <==> a.partial >= 5
  {
    if a.partial >= 5 {
      assert PartialPatternTip(a.average) in ApplyRules(a, state);
    }
  }

  /**
   * The streak-record rules fire exactly on their triggers: a record with no
   * grace left for the grace-depleted tip, a streak of seven or more for the
   * celebration tip. Without a record neither fires.
   */
  lemma StreakRulesFireExactly(h: Habit, state: Option<StreakState>, history: seq<DailyProgress>, now: int)
    requires |history| >= 3
    ensures var tips := GenerateCoachingTips(h, state, history, now);
            && ((GraceDepletedTip in tips) <==> state.Some? && state.value.graceRemaining == 0)
            && ((exists t :: t in tips && t.CelebrationTip?) <==> state.Some? && state.value.currentStreak >= 7)
  {
    var a := Analyze(h, history, now);
    assert GenerateCoachingTips(h, state, history, now) == ApplyRules(a, state);
    StreakRulesOnAnalysis(a, state);
  }

  lemma StreakRulesOnAnalysis(a: Analysis, state: Option<StreakState>)
    ensures var tips := ApplyRules(a, state);
            && ((GraceDepletedTip in tips) <==> state.Some? && state.value.graceRemaining == 0)
            && ((exists t :: t in tips && t.CelebrationTip?) <==> state.Some? && state.value.currentStreak >= 7)
  {
    if state.Some? && state.value.currentStreak >= 7 {
      assert CelebrationTip(state.value.currentStreak) in ApplyRules(a, state);
    }
  }

  /** The weak-day tip is present exactly when some weekday is flagged, and names the weakest. */
  lemma WeakDayRuleFiresExactly(h: Habit, state: Option<StreakState>, history: seq<DailyProgress>, now: int)
    requires |history| >= 3
    ensures var tips := GenerateCoachingTips(h, state, history, now);
            && ((exists t :: t in tips && t.WeakDayTip?) <==> exists w: Weekday :: Flagged(history, h.targetValue, w))
            && (forall t :: t in tips && t.WeakDayTip? ==> WeakestDay(history, h.targetValue, t.day))
  {
    var a := Analyze(h, history, now);
    var tips := ApplyRules(a, state);
    if a.weakDay.Some? {
      assert WeakestDay(history, h.targetValue, a.weakDay.value);
      assert WeakDayTip(a.weakDay.value) in tips;
    }
  }

  /**
   * The coach and the card agree: with enough history, the grace-depleted tip
   * appears exactly when the card's status for the same record is fragile.
   */
  lemma GraceTipIffFragile(h: Habit, state: Option<StreakState>, history: seq<DailyProgress>, now: int)
    requires |history| >= 3
    ensures GraceDepletedTip in GenerateCoachingTips(h, state, history, now) <==>
              StreakEngine.GetStreakStatus(state) == StreakEngine.Fragile
  {
    StreakRulesFireExactly(h, state, history, now);
  }

  /**
   * Target 10 with recent progress 3, 5, 0, 12, 4, 6: four partial days, too
   * few for the partial-pattern rule. One more day at 2 makes five, and the
   * proposed target is the mean 32/7 rounded, 5.
   */
  lemma PartialPatternScenario(a: DailyProgress, b: DailyProgress, c: DailyProgress, d: DailyProgress,
                               e: DailyProgress, f: DailyProgress, g: DailyProgress)
    requires a.progress == 3 && b.progress == 5 && c.progress == 0
    requires d.progress == 12 && e.progress == 4 && f.progress == 6 && g.progress == 2
    ensures CountPartial([a, b, c, d, e, f], 10) == 4
    ensures CountPartial([a, b, c, d, e, f, g], 10) == 5
    ensures AverageProgress([a, b, c, d, e, f, g]) == 5
  {
    LogBuiltEntryByEntry(a, b, c, d, e, f, g);
    AppendOne([], a, 10);
    AppendOne([a], b, 10);
    AppendOne([a, b], c, 10);
    AppendOne([a, b, c], d, 10);
    AppendOne([a, b, c, d], e, 10);
    AppendOne([a, b, c, d, e], f, 10);
    AppendOne([a, b, c, d, e, f], g, 10);
    assert JsMath.Round(32, 7) == 5;
  }

  /**
   * The worked example's seven-entry log written as successive one-entry
   * extensions, so that the per-entry counting step applies to each prefix.
   */
  lemma LogBuiltEntryByEntry<T>(a: T, b: T, c: T, d: T, e: T, f: T, g: T)
    ensures [] + [a] == [a] && [a] + [b] == [a, b] && [a, b] + [c] == [a, b, c]
    ensures [a, b, c] + [d] == [a, b, c, d] && [a, b, c, d] + [e] == [a, b, c, d, e]
    ensures [a, b, c, d, e] + [f] == [a, b, c, d, e, f]
    ensures [a, b, c, d, e, f] + [g] == [a, b, c, d, e, f, g]
  {
  }

  /** Counting and summing extend entry by entry at the end of the log. */
  lemma {:induction false} AppendOne(s: seq<DailyProgress>, x: DailyProgress, target: int)
    ensures CountPartial(s + [x], target) == CountPartial(s, target) + (if Partial(x, target) then 1 else 0)
    ensures SumProgress(s + [x]) == SumProgress(s) + x.progress
    decreases |s|
  {
    if s != [] {
      assert (s + [x])[1..] == s[1..] + [x];
      AppendOne(s[1..], x, target);
    } else {
      assert [x][1..] == [];
    }
  }
}

=== FILE: coaching_tips.dfy ===
/**
 * The coaching-tips panel: an empty-state message when there are no tips,
 * otherwise the tips in priority order, each with its icon. The panel sorts
 * a copy, so the caller's list is left as it was.
 */
module CoachingTips {
  import opened Options
  import opened CoachingEngine

  predicate SortedByPriority(s: seq<Tip>) {
    forall i, j :: 0 <= i < j < |s| ==> GetTipPriority(s[i]) <= GetTipPriority(s[j])
  }

  /** `t` alone if it has priority `k`, nothing otherwise. */
  function Keep(t: Tip, k: nat): seq<Tip> {
    if GetTipPriority(t) == k then [t] else []
  }

  /** The tips of priority `k`, in the order they appear. */
  function WithPriority(s: seq<Tip>, k: nat): seq<Tip>
    decreases |s|
  {
    if s == [] then [] else Keep(s[0], k) + WithPriority(s[1..], k)
  }

  /** Places `x` before the first tip whose priority is not lower than its own. */
  function Insert(x: Tip, s: seq<Tip>): (r: seq<Tip>)
    ensures multiset(r) == multiset(s) + multiset{x}
    ensures forall y :: y in r <==> y == x || y in s
    decreases |s|
  {
    if s == [] || GetTipPriority(x) <= GetTipPriority(s[0]) then
      [x] + s
    else
      assert s == [s[0]] + s[1..];
      [s[0]] + Insert(x, s[1..])
  }

  /** Inserting into a priority-sorted list keeps it sorted. */
  lemma {:induction false} InsertKeepsSorted(x: Tip, s: seq<Tip>)
    requires SortedByPriority(s)
    ensures SortedByPriority(Insert(x, s))
    decreases |s|
  {
    if s != [] && GetTipPriority(x) > GetTipPriority(s[0]) {
      var tail := s[1..];
      assert SortedByPriority(tail) by {
        forall i, j | 0 <= i < j < |tail| ensures GetTipPriority(tail[i]) <= GetTipPriority(tail[j]) {
          assert tail[i] == s[i + 1] && tail[j] == s[j + 1];
        }
      }
      InsertKeepsSorted(x, tail);
      assert s == [s[0]] + tail;
      HeadBelowRest(s[0], tail, x, Insert(x, tail));
    } else if s != [] {
      forall i, j | 0 <= i < j < |[x] + s| ensures GetTipPriority(([x] + s)[i]) <= GetTipPriority(([x] + s)[j]) {
        if i > 0 {
          assert ([x] + s)[i] == s[i - 1] && ([x] + s)[j] == s[j - 1];
        } else {
          assert ([x] + s)[j] == s[j - 1];
        }
      }
    }
  }

  /** A head no later than every tip of a sorted tail, and than `x`, stays first once `x` joins the tail. */
  lemma HeadBelowRest(head: Tip, tail: seq<Tip>, x: Tip, rest: seq<Tip>)
    requires SortedByPriority([head] + tail) && SortedByPriority(rest)
    requires GetTipPriority(head) < GetTipPriority(x)
    requires forall y :: y in rest ==> y == x || y in tail
    ensures SortedByPriority([head] + rest)
  {
    forall y | y in rest ensures GetTipPriority(head) <= GetTipPriority(y) {
      if y != x {
        var j :| 0 <= j < |tail| && tail[j] == y;
        assert ([head] + tail)[0] == head && ([head] + tail)[j + 1] == y;
      }
    }
    forall i, j | 0 <= i < j < |[head] + rest|
      ensures GetTipPriority(([head] + rest)[i]) <= GetTipPriority(([head] + rest)[j])
    {
      if i > 0 {
        assert ([head] + rest)[i] == rest[i - 1] && ([head] + rest)[j] == rest[j - 1];
      } else {
        assert ([head] + rest)[j] in rest;
      }
    }
  }

  lemma {:induction false} WithPriorityAppend(a: seq<Tip>, b: seq<Tip>, k: nat)
    ensures WithPriority(a + b, k) == WithPriority(a, k) + WithPriority(b, k)
    decreases |a|
  {
    if a == [] {
      assert a + b == b;
    } else {
      calc {
        WithPriority(a + b, k);
        { assert (a + b)[0] == a[0] && (a + b)[1..] == a[1..] + b; }
        Keep(a[0], k) + WithPriority(a[1..] + b, k);
        { WithPriorityAppend(a[1..], b, k); }
        Keep(a[0], k) + (WithPriority(a[1..], k) + WithPriority(b, k));
        WithPriority(a, k) + WithPriority(b, k);
      }
    }
  }

  /** Tips of different priority can trade places without disturbing any priority's subsequence. */
  lemma KeepSwap(a: Tip, b: Tip, k: nat, rest: seq<Tip>)
    requires GetTipPriority(a) != GetTipPriority(b)
    ensures Keep(a, k) + (Keep(b, k) + rest) == Keep(b, k) + (Keep(a, k) + rest)
  {
    if GetTipPriority(a) == k {
      assert Keep(b, k) == [];
    } else {
      assert Keep(a, k) == [];
    }
  }

  /**
   * Inserting keeps the order among tips of each priority: `x` lands ahead of
   * the tips of its own priority, which it preceded in the input.
   */
  lemma {:induction false} InsertWithPriority(x: Tip, s: seq<Tip>, k: nat)
    ensures WithPriority(Insert(x, s), k) == Keep(x, k) + WithPriority(s, k)
    decreases |s|
  {
    if s == [] || GetTipPriority(x) <= GetTipPriority(s[0]) {
      WithPriorityCons(x, s, k);
    } else {
      var s0, tail := s[0], s[1..];
      var rest := Insert(x, tail);
      assert Insert(x, s) == [s0] + rest;
      WithPriorityCons(s0, rest, k);
      InsertWithPriority(x, tail, k);
      KeepSwap(s0, x, k, WithPriority(tail, k));
      assert s == [s0] + tail;
      WithPriorityCons(s0, tail, k);
    }
  }

  lemma WithPriorityCons(a: Tip, rest: seq<Tip>, k: nat)
    ensures WithPriority([a] + rest, k) == Keep(a, k) + WithPriority(rest, k)
  {
    assert ([a] + rest)[1..] == rest;
  }

  /**
   * The panel's `[...tips].sort` by `getTipPriority`: a stable sort. The
   * result is ordered by priority, holds exactly the given tips, and keeps
   * tips of equal priority in their original order.
   */
  function SortByPriority(tips: seq<Tip>): (r: seq<Tip>)
    ensures SortedByPriority(r)
    ensures multiset(r) == multiset(tips)
    ensures forall k :: WithPriority(r, k) == WithPriority(tips, k)
    decreases |tips|
  {
    if tips == [] then []
    else
      var rest := SortByPriority(tips[1..]);
      assert tips == [tips[0]] + tips[1..];
      InsertKeepsSorted(tips[0], rest);
      assert forall k :: WithPriority(Insert(tips[0], rest), k) == WithPriority(tips, k) by {
        forall k ensures WithPriority(Insert(tips[0], rest), k) == WithPriority(tips, k) {
          InsertWithPriority(tips[0], rest, k);
        }
      }
      Insert(tips[0], rest)
  }

  /** The icons the panel shows. */
  datatype Icon = Warning | ChartDown | Calendar | BarChart | Party | Wave | Bulb

  /** `getIcon`: one icon per known kind and a light bulb for anything else. */
  function GetIcon(t: Tip): (i: Icon)
    ensures i == Bulb <==> t.OtherTip?
  {
    match t
    case GraceDepletedTip => Warning
    case ReduceTargetTip(_, _, _) => ChartDown
    case WeakDayTip(_) => Calendar
    case PartialPatternTip(_) => BarChart
    case CelebrationTip(_) => Party
    case WelcomeTip => Wave
    case OtherTip(_) => Bulb
  }

  /** Distinct kinds get distinct icons, the fallback aside. */
  lemma IconIdentifiesKind(a: Tip, b: Tip)
    requires !a.OtherTip?
    ensures GetIcon(a) == GetIcon(b) <==> SameKind(a, b)
  {
  }

  datatype TipCard = TipCard(tip: Tip, icon: Icon)

  /** The tips on a run of cards, in card order. */
  function CardTips(cards: seq<TipCard>): (r: seq<Tip>)
    ensures |r| == |cards|
    ensures forall i :: 0 <= i < |cards| ==> r[i] == cards[i].tip
  {
    seq(|cards|, i requires 0 <= i < |cards| => cards[i].tip)
  }

  /** What the panel renders. */
  datatype Panel = EmptyState | TipCards(cards: seq<TipCard>)

  /** The panel for the tips it is given; `None` is a missing `tips` prop. */
  function RenderTips(tips: Option<seq<Tip>>): (p: Panel)
    ensures p.EmptyState? <==> tips.None? || tips.value == []
    ensures p.TipCards? ==>
              && |p.cards| == |tips.value|
              && CardTips(p.cards) == SortByPriority(tips.value)
              && (forall i :: 0 <= i < |p.cards| ==> p.cards[i].icon == GetIcon(p.cards[i].tip))
  {
    if tips.None? || tips.value == [] then EmptyState
    else
      var sorted := SortByPriority(tips.value);
      var cards := seq(|sorted|, i requires 0 <= i < |sorted| => TipCard(sorted[i], GetIcon(sorted[i])));
      assert CardTips(cards) == sorted;
      assert |sorted| == |multiset(sorted)| == |multiset(tips.value)| == |tips.value|;
      TipCards(cards)
  }

  /** Celebration, grace-depleted and weak-day tips are shown grace first, then weak day, then celebration. */
  lemma SortExample(streak: nat, day: DateUtils.Weekday)
    ensures SortByPriority([CelebrationTip(streak), GraceDepletedTip, WeakDayTip(day)]) ==
            [GraceDepletedTip, WeakDayTip(day), CelebrationTip(streak)]
  {
    var c, g, w := CelebrationTip(streak), GraceDepletedTip, WeakDayTip(day);
    assert SortByPriority([w]) == [w] by {
      assert [w][1..] == [];
    }
    assert SortByPriority([g, w]) == [g, w] by {
      assert [g, w][1..] == [w];
    }
    assert Insert(c, [w]) == [w, c] by {
      assert [w][1..] == [];
    }
    assert Insert(c, [g, w]) == [g, w, c] by {
      assert [g, w][1..] == [w];
    }
    assert [c, g, w][1..] == [g, w];
  }
}

=== FILE: date_utils.dfy ===
/**
 * Calendar helpers over day numbers: the weekday of a day, schedule
 * membership, the Monday-start week around a day, and runs of past and
 * upcoming days. "Today" is a parameter instead of a clock reading.
 */
module DateUtils {
  import opened Options
  import opened Model

  /** Weekday index with Sunday = 0 .. Saturday = 6. */
  type Weekday = w: int | 0 <= w < 7

  /** 1970-01-01 (day 0) was a Thursday. */
  const EpochWeekday: Weekday := 4

  function WeekdayOf(d: Day): Weekday {
    (d + EpochWeekday) % 7
  }

  /** The remainder modulo 7 is the one `r` with `a == 7*q + r` for some `q`. */
  lemma ModSevenUnique(a: int, q: int, r: int)
    requires a == 7 * q + r && 0 <= r < 7
    ensures a % 7 == r
  {
  }

  /** The day after a given weekday is the next weekday, wrapping Saturday to Sunday. */
  lemma WeekdayNext(d: Day)
    ensures WeekdayOf(d + 1) == (WeekdayOf(d) + 1) % 7
  {
    var q, r := (d + 4) / 7, (d + 4) % 7;
    if r < 6 {
      ModSevenUnique(d + 5, q, r + 1);
    } else {
      ModSevenUnique(d + 5, q + 1, 0);
    }
  }

  /** The schedule token of each weekday. */
  function DayToken(w: Weekday): string {
    ["Sun", "Mon", "Tue", "Wed", "Thu", "Fri", "Sat"][w]
  }

  lemma DayTokenInjective(v: Weekday, w: Weekday)
    ensures DayToken(v) == DayToken(w) <==> v == w
  {
  }

  /** Whether a habit with this schedule is due on day `d`. */
  predicate IsScheduledForDay(schedule: seq<string>, d: Day): (due: bool)
    ensures schedule == [] ==> !due
    ensures (forall w: Weekday :: DayToken(w) in schedule) ==> due
  {
    DayToken(WeekdayOf(d)) in schedule
  }

  /** Due-ness depends on the weekday alone: a week later gives the same answer. */
  lemma ScheduleIsWeekly(schedule: seq<string>, d: Day)
    ensures IsScheduledForDay(schedule, d) == IsScheduledForDay(schedule, d + 7)
    ensures WeekdayOf(d + 7) == WeekdayOf(d)
  {
    ModSevenUnique(d + 11, (d + 4) / 7 + 1, (d + 4) % 7);
  }

  /** Due-ness is exactly membership of the day's weekday among the schedule's tokens. */
  lemma ScheduledIffWeekdayListed(schedule: seq<string>, d: Day)
    ensures IsScheduledForDay(schedule, d) <==>
              exists i :: 0 <= i < |schedule| && schedule[i] == DayToken(WeekdayOf(d))
  {
  }

  /** Days back from `d` to the Monday of its week (Monday-start weeks). */
  function DaysSinceMonday(d: Day): (k: int)
    ensures 0 <= k < 7
    ensures WeekdayOf(d - k) == 1
  {
    MondayBefore(d);
    (WeekdayOf(d) + 6) % 7
  }

  lemma MondayBefore(d: Day)
    ensures WeekdayOf(d - (WeekdayOf(d) + 6) % 7) == 1
  {
    var w := WeekdayOf(d);
    var q := (d + 4) / 7;
    if w >= 1 {
      ModSevenUnique(d - (w - 1) + 4, q, 1);
    } else {
      ModSevenUnique(d - 6 + 4, q - 1, 1);
    }
  }

  /** The seven days of the Monday-start week that contains `d`. */
  function WeekDays(d: Day): (days: seq<Day>)
    ensures |days| == 7
    ensures WeekdayOf(days[0]) == 1
    ensures forall i :: 0 <= i < 7 ==> days[i] == days[0] + i
    ensures days[0] <= d <= days[6] && d in days
  {
    var start := d - DaysSinceMonday(d);
    var days := seq(7, i => start + i);
    assert days[DaysSinceMonday(d)] == d;
    days
  }

  /** Two days of the same Monday-start week enumerate the same week. */
  lemma WeekDaysSameWeek(d: Day, e: Day)
    requires e in WeekDays(d)
    ensures WeekDays(e) == WeekDays(d)
  {
    var w := WeekDays(d);
    var i :| 0 <= i < 7 && w[i] == e;
    assert WeekdayOf(e) == (i + 1) % 7 by {
      WeekdayShift(w[0], i);
    }
    assert DaysSinceMonday(e) == i;
  }

  lemma WeekdayShift(d: Day, k: nat)
    ensures WeekdayOf(d + k) == (WeekdayOf(d) + k) % 7
  {
    var q1, r1 := (d + EpochWeekday) / 7, (d + EpochWeekday) % 7;
    var q2, r2 := (r1 + k) / 7, (r1 + k) % 7;
    assert d + EpochWeekday + k == 7 * (q1 + q2) + r2;
    ModSevenUnique(d + EpochWeekday + k, q1 + q2, r2);
  }

  /**
   * The `count` days ending with `today`, oldest first (one per loop step
   * counting i down from count-1 to 0, pushing today-i).
   */
  method PastDays(today: Day, count: int) returns (days: seq<Day>)
    ensures |days| == if count > 0 then count else 0
    ensures forall i :: 0 <= i < |days| ==> days[i] == today - (|days| - 1) + i
    ensures |days| > 0 ==> days[|days| - 1] == today
    ensures forall i, j :: 0 <= i < j < |days| ==> days[i] < days[j]
  {
    days := [];
    var i := count - 1;
    while i >= 0
      invariant count > 0 ==> -1 <= i < count
      invariant count <= 0 ==> i < 0
      invariant |days| == if count > 0 then count - 1 - i else 0
      invariant forall k :: 0 <= k < |days| ==> days[k] == today - (count - 1) + k
    {
      days := days + [today - i];
      i := i - 1;
    }
  }

  /** The `count` days starting with `today`, in calendar order. */
  method NextDays(today: Day, count: int) returns (days: seq<Day>)
    ensures |days| == if count > 0 then count else 0
    ensures forall i :: 0 <= i < |days| ==> days[i] == today + i
    ensures |days| > 0 ==> days[0] == today
    ensures forall i, j :: 0 <= i < j < |days| ==> days[i] < days[j]
  {
    days := [];
    var i := 0;
    while i < count
      invariant 0 <= i
      invariant count > 0 ==> i <= count
      invariant count <= 0 ==> i == 0
      invariant |days| == i
      invariant forall k :: 0 <= k < |days| ==> days[k] == today + k
    {
      days := days + [today + i];
      i := i + 1;
    }
  }

  /** A date argument: either already a "yyyy-MM-dd" string or a calendar value. */
  datatype DateArg = DateText(text: string) | DateValue(day: Day)

  /**
   * Formats a date argument. A string is passed through untouched; rendering a
   * calendar value is the date library's job and is supplied as `render`.
   */
  function FormatDate(d: DateArg, render: Day -> string): (s: string)
    ensures d.DateText? ==> s == d.text
    ensures d.DateValue? ==> s == render(d.day)
  {
    match d
    case DateText(t) => t
    case DateValue(day) => render(day)
  }

  /** Formatting is idempotent: formatting an already formatted date changes nothing. */
  lemma FormatDateIdempotent(d: DateArg, render: Day -> string)
    ensures FormatDate(DateText(FormatDate(d, render)), render) == FormatDate(d, render)
  {
  }
}

=== FILE: habit_card.dfy ===
/**
 * One habit's card on the dashboard: the +/- buttons that adjust the day's
 * progress, the completion celebration, the streak badge and the grace
 * indicator.
 */
module HabitCard {
  import opened Options
  import opened Model
  import opened DateUtils
  import opened StreakEngine

  // ---------------------------------------------------------------- progress buttons

  /** The record the card writes to storage after every click. */
  datatype ProgressUpdate = ProgressUpdate(habitId: string, date: Day, progress: int, completed: bool)

  datatype Click = Increment | Decrement

  /** What a click leaves: the new progress, the record written, and whether the card celebrates. */
  datatype ClickResult = ClickResult(progress: int, update: ProgressUpdate, celebrate: bool)

  /** The ceiling of the + button: twice the target. */
  function ProgressCap(h: Habit): int {
    2 * h.targetValue
  }

  /** The progress value one click produces. */
  function Step(h: Habit, progress: int, c: Click): (n: int)
    ensures c == Increment ==> n <= ProgressCap(h) && n <= progress + 1
    ensures c == Increment && progress < ProgressCap(h) ==> n == progress + 1
    ensures c == Decrement ==> n >= 0 && n >= progress - 1
    ensures c == Decrement && progress > 0 ==> n == progress - 1
    ensures c == Increment ==> n == progress + 1 || n == ProgressCap(h)
    ensures c == Decrement ==> n == progress - 1 || n == 0
  {
    match c
    case Increment => if progress + 1 < ProgressCap(h) then progress + 1 else ProgressCap(h)
    case Decrement => if progress - 1 > 0 then progress - 1 else 0
  }

  /** `handleIncrement` / `handleDecrement` on the card of habit `h` for day `date`. */
  function OnClick(h: Habit, date: Day, progress: int, c: Click): (r: ClickResult)
    ensures r.progress == Step(h, progress, c)
    ensures r.update == ProgressUpdate(h.id, date, r.progress, r.progress >= h.targetValue)
    ensures r.celebrate ==> c == Increment && progress < h.targetValue <= r.progress
    ensures c == Increment && progress < h.targetValue <= r.progress ==> r.celebrate
  {
    var n := Step(h, progress, c);
    ClickResult(n, ProgressUpdate(h.id, date, n, n >= h.targetValue),
                c == Increment && progress < h.targetValue && n >= h.targetValue)
  }

  /** The progress after a run of clicks. */
  function Clicks(h: Habit, progress: int, clicks: seq<Click>): int
    decreases |clicks|
  {
    if clicks == [] then progress else Clicks(h, Step(h, progress, clicks[0]), clicks[1..])
  }

  /** Starting within `0..2*target`, no sequence of clicks leaves that range. */
  lemma {:induction false} ClicksStayInRange(h: Habit, progress: int, clicks: seq<Click>)
    requires h.targetValue >= 0 && 0 <= progress <= ProgressCap(h)
    ensures 0 <= Clicks(h, progress, clicks) <= ProgressCap(h)
    decreases |clicks|
  {
    if clicks != [] {
      ClicksStayInRange(h, Step(h, progress, clicks[0]), clicks[1..]);
    }
  }

  /** With a positive target, the celebration fires exactly on the + click from one below the target. */
  lemma CelebrateExactlyAtTarget(h: Habit, date: Day, progress: int, c: Click)
    requires h.targetValue >= 1 && progress >= 0
    ensures OnClick(h, date, progress, c).celebrate <==> c == Increment && progress == h.targetValue - 1
  {
  }

  /** The completion flag the card writes is exactly the streak engine's notion of completed. */
  lemma WrittenFlagMatchesEngine(h: Habit, date: Day, progress: int, c: Click)
    requires h.targetValue >= 1 && progress >= 0
    ensures var u := OnClick(h, date, progress, c).update;
            u.progress >= 0 &&
            (u.completed <==> IsCompleted(h, Some(DailyProgress(u.habitId, u.date, u.progress, u.completed))))
  {
  }

  /** A + click from a stored value above the cap pulls progress down to the cap. */
  lemma IncrementAboveCapLowers(h: Habit, date: Day, progress: int)
    requires progress > ProgressCap(h)
    ensures OnClick(h, date, progress, Increment).progress == ProgressCap(h) < progress
  {
  }

  // ---------------------------------------------------------------- streak badge

  datatype Badge = Legend | Master | Warrior | Hot | NoBadge

  /** The streak the card shows: zero when the habit has no streak record. */
  function ShownStreak(s: Option<StreakState>): (n: nat)
    ensures s.Some? ==> n == s.value.currentStreak
    ensures s.None? ==> n == 0
  {
    if s.Some? then s.value.currentStreak else 0
  }

  /** `getStreakBadge`: the highest tier the streak has reached. */
  function StreakBadge(s: Option<StreakState>): (b: Badge)
    ensures b == Legend <==> ShownStreak(s) >= 30
    ensures b == Master <==> 14 <= ShownStreak(s) < 30
    ensures b == Warrior <==> 7 <= ShownStreak(s) < 14
    ensures b == Hot <==> 3 <= ShownStreak(s) < 7
    ensures b == NoBadge <==> ShownStreak(s) < 3
  {
    var n := ShownStreak(s);
    if n >= 30 then Legend
    else if n >= 14 then Master
    else if n >= 7 then Warrior
    else if n >= 3 then Hot
    else NoBadge
  }

  /** The text of the badge's label; the lowest tier has none. */
  function BadgeLabel(b: Badge): string {
    match b
    case Legend => "Legend"
    case Master => "Master"
    case Warrior => "Warrior"
    case Hot => "Hot"
    case NoBadge => ""
  }

  function Tier(b: Badge): nat {
    match b
    case NoBadge => 0
    case Hot => 1
    case Warrior => 2
    case Master => 3
    case Legend => 4
  }

  /** A longer streak never shows a lower badge. */
  lemma BadgeMonotone(s: Option<StreakState>, t: Option<StreakState>)
    requires ShownStreak(s) <= ShownStreak(t)
    ensures Tier(StreakBadge(s)) <= Tier(StreakBadge(t))
  {
  }

  /** The card shows the label exactly when the streak is at least 3. */
  predicate ShowsBadgeLabel(s: Option<StreakState>): (shown: bool)
    ensures shown ==> s.Some?
    ensures shown <==> StreakBadge(s) != NoBadge
  {
    ShownStreak(s) >= 3
  }

  /** The label is shown exactly when there is a non-empty label to show. */
  lemma LabelShownIffNonEmpty(s: Option<StreakState>)
    ensures ShowsBadgeLabel(s) <==> BadgeLabel(StreakBadge(s)) != ""
  {
  }

  // ---------------------------------------------------------------- grace indicator

  /** The grace indicator: shown once some grace has been spent; a habit without a record shows none. */
  predicate ShowsGraceIndicator(s: Option<StreakState>, graceCredits: int): (shown: bool)
    ensures shown ==> s.Some?
    ensures s.Some? && s.value.graceRemaining <= 0 < graceCredits ==> shown
    ensures s.Some? && s.value.graceRemaining >= graceCredits ==> !shown
  {
    s.Some? && s.value.graceRemaining < graceCredits
  }

  /** A fresh record hides the indicator; a covered miss on a due day reveals it. */
  lemma GraceIndicatorAfterMiss(h: Habit, s: StreakState, date: Day, p: Option<DailyProgress>)
    requires s.graceRemaining > 0 && s.graceRemaining <= h.graceCredits
    requires IsScheduledForDay(h.schedule, date) && !IsCompleted(h, p)
    ensures !ShowsGraceIndicator(Some(InitialStreakState(h)), h.graceCredits)
    ensures ShowsGraceIndicator(Some(Advance(h, s, date, p)), h.graceCredits)
    ensures !ShowsGraceIndicator(None, h.graceCredits)
  {
  }
}

=== FILE: habit_context.dfy ===
/**
 * The app-wide habit store: a reducer over the list of habits and the map
 * from habit id to streak record, plus the selected date, a loading flag and
 * an error message.
 */
module HabitContext {
  import opened Options
  import opened Model

  datatype AppState = AppState(
    habits: seq<Habit>,
    streakStates: map<string, StreakState>,
    selectedDate: string,
    loading: bool,
    error: Option<string>)

  /** The store before anything is loaded; `today` is the ISO date of the clock. */
  function InitialState(today: string): (s: AppState)
    ensures s.habits == [] && s.streakStates == map[] && s.loading && s.error.None?
  {
    AppState([], map[], today, true, None)
  }

  datatype Action =
    | SetHabits(habits: seq<Habit>)
    | AddHabit(habit: Habit)
    | UpdateHabit(habit: Habit)
    | DeleteHabit(id: string)
    | SetStreakStates(states: seq<StreakState>)
    | UpdateStreakState(state: StreakState)
    | SetSelectedDate(date: string)
    | SetLoading(loading: bool)
    | SetError(message: string)
    | OtherAction(kind: string)   // any action type the reducer does not handle

  /** Every habit with id `h.id` replaced by `h`; the others kept in place. */
  function ReplaceHabit(habits: seq<Habit>, h: Habit): (r: seq<Habit>)
    ensures |r| == |habits|
    ensures forall i :: 0 <= i < |r| ==> r[i] == (if habits[i].id == h.id then h else habits[i])
  {
    seq(|habits|, i requires 0 <= i < |habits| => if habits[i].id == h.id then h else habits[i])
  }

  function CountId(habits: seq<Habit>, id: string): nat
    decreases |habits|
  {
    if habits == [] then 0 else (if habits[0].id == id then 1 else 0) + CountId(habits[1..], id)
  }

  /** The habits whose id is not `id`, in their original order. */
  function RemoveHabit(habits: seq<Habit>, id: string): (r: seq<Habit>)
    ensures |r| + CountId(habits, id) == |habits|
    decreases |habits|
  {
    if habits == [] then []
    else (if habits[0].id == id then [] else [habits[0]]) + RemoveHabit(habits[1..], id)
  }

  /** Removal keeps exactly the habits with another id. */
  lemma {:induction false} RemoveKeepsOthers(habits: seq<Habit>, id: string)
    ensures forall h :: h in RemoveHabit(habits, id) <==> h in habits && h.id != id
    decreases |habits|
  {
    if habits != [] {
      RemoveKeepsOthers(habits[1..], id);
      assert habits == [habits[0]] + habits[1..];
    }
  }

  /** Removing an id nobody has changes nothing. */
  lemma {:induction false} RemoveAbsentId(habits: seq<Habit>, id: string)
    requires forall i :: 0 <= i < |habits| ==> habits[i].id != id
    ensures RemoveHabit(habits, id) == habits
    decreases |habits|
  {
    if habits != [] {
      RemoveAbsentId(habits[1..], id);
      assert habits == [habits[0]] + habits[1..];
    }
  }

  /** Removal distributes over concatenation, so it keeps relative order. */
  lemma {:induction false} RemoveAppend(a: seq<Habit>, b: seq<Habit>, id: string)
    ensures RemoveHabit(a + b, id) == RemoveHabit(a, id) + RemoveHabit(b, id)
    decreases |a|
  {
    if a == [] {
      assert a + b == b;
    } else {
      var head: seq<Habit> := if a[0].id == id then [] else [a[0]];
      calc {
        RemoveHabit(a + b, id);
        { assert (a + b)[0] == a[0] && (a + b)[1..] == a[1..] + b; }
        head + RemoveHabit(a[1..] + b, id);
        { RemoveAppend(a[1..], b, id); }
        head + (RemoveHabit(a[1..], id) + RemoveHabit(b, id));
        (head + RemoveHabit(a[1..], id)) + RemoveHabit(b, id);
        RemoveHabit(a, id) + RemoveHabit(b, id);
      }
    }
  }

  /** Some record in `states` belongs to habit `k`. */
  predicate HasRecordFor(states: seq<StreakState>, k: string) {
    exists i :: 0 <= i < |states| && states[i].habitId == k
  }

  /** No later record in `states` belongs to the same habit as record `i`. */
  predicate LastFor(states: seq<StreakState>, i: int)
    requires 0 <= i < |states|
  {
    forall j :: i < j < |states| ==> states[j].habitId != states[i].habitId
  }

  /** `SET_STREAK_STATES`: a map keyed by habit id, filled in list order. */
  function StreakMap(states: seq<StreakState>): map<string, StreakState>
    decreases |states|
  {
    if states == [] then map[]
    else
      var n := |states| - 1;
      StreakMap(states[..n])[states[n].habitId := states[n]]
  }

  /** The map has a key for exactly the habits that have a record. */
  lemma {:induction false} StreakMapKeys(states: seq<StreakState>)
    ensures forall k :: k in StreakMap(states) <==> HasRecordFor(states, k)
    decreases |states|
  {
    if states != [] {
      var n := |states| - 1;
      var prefix := states[..n];
      StreakMapKeys(prefix);
      forall k ensures k in StreakMap(states) <==> HasRecordFor(states, k) {
        if k in StreakMap(states) && k != states[n].habitId {
          assert k in StreakMap(prefix);
          var i :| 0 <= i < n && prefix[i].habitId == k;
          assert states[i].habitId == k;
        }
        if HasRecordFor(states, k) && k != states[n].habitId {
          var i :| 0 <= i < |states| && states[i].habitId == k;
          assert prefix[i].habitId == k;
        }
      }
    }
  }

  /** For each habit the map holds the last record in the list: a later record wins. */
  lemma {:induction false} StreakMapLastWins(states: seq<StreakState>, i: int)
    requires 0 <= i < |states| && LastFor(states, i)
    ensures states[i].habitId in StreakMap(states)
    ensures StreakMap(states)[states[i].habitId] == states[i]
    decreases |states|
  {
    var n := |states| - 1;
    if i < n {
      var prefix := states[..n];
      assert prefix[i] == states[i];
      assert LastFor(prefix, i) by {
        forall j | i < j < |prefix| ensures prefix[j].habitId != prefix[i].habitId {
          assert prefix[j] == states[j];
        }
      }
      StreakMapLastWins(prefix, i);
    }
  }

  /** `habitReducer`. */
  function HabitReducer(s: AppState, a: Action): (t: AppState)
    ensures a.SetHabits? ==> t == s.(habits := a.habits, loading := false)
    ensures a.AddHabit? ==> t == s.(habits := s.habits + [a.habit])
    ensures a.UpdateHabit? ==> t == s.(habits := ReplaceHabit(s.habits, a.habit))
    ensures a.DeleteHabit? ==> t == s.(habits := RemoveHabit(s.habits, a.id))
    ensures a.SetStreakStates? ==> t == s.(streakStates := StreakMap(a.states))
    ensures a.UpdateStreakState? ==>
              && t.streakStates.Keys == s.streakStates.Keys + {a.state.habitId}
              && t.streakStates[a.state.habitId] == a.state
              && (forall k :: k in s.streakStates && k != a.state.habitId ==> t.streakStates[k] == s.streakStates[k])
              && t == s.(streakStates := t.streakStates)
    ensures a.SetSelectedDate? ==> t == s.(selectedDate := a.date)
    ensures a.SetLoading? ==> t == s.(loading := a.loading)
    ensures a.SetError? ==> t == s.(error := Some(a.message), loading := false)
    ensures a.OtherAction? ==> t == s
  {
    match a
    case SetHabits(hs) => s.(habits := hs, loading := false)
    case AddHabit(h) => s.(habits := s.habits + [h])
    case UpdateHabit(h) => s.(habits := ReplaceHabit(s.habits, h))
    case DeleteHabit(id) => s.(habits := RemoveHabit(s.habits, id))
    case SetStreakStates(states) => s.(streakStates := StreakMap(states))
    case UpdateStreakState(st) => s.(streakStates := s.streakStates[st.habitId := st])
    case SetSelectedDate(d) => s.(selectedDate := d)
    case SetLoading(b) => s.(loading := b)
    case SetError(msg) => s.(error := Some(msg), loading := false)
    case OtherAction(_) => s
  }

  /** Updating one streak record is a single-key map update and nothing else. */
  lemma UpdateStreakStateIsMapUpdate(s: AppState, st: StreakState)
    ensures HabitReducer(s, UpdateStreakState(st)) == s.(streakStates := s.streakStates[st.habitId := st])
  {
  }

  /** Deleting a just-added habit whose id was new restores the store exactly. */
  lemma AddThenDelete(s: AppState, h: Habit)
    requires forall i :: 0 <= i < |s.habits| ==> s.habits[i].id != h.id
    ensures HabitReducer(HabitReducer(s, AddHabit(h)), DeleteHabit(h.id)) == s
  {
    RemoveAppend(s.habits, [h], h.id);
    RemoveAbsentId(s.habits, h.id);
    assert RemoveHabit([h], h.id) == [] by {
      assert [h][1..] == [];
    }
  }

  /** Updating a habit with itself or twice in a row is the same as once. */
  lemma UpdateIdempotent(s: AppState, h: Habit)
    ensures HabitReducer(HabitReducer(s, UpdateHabit(h)), UpdateHabit(h)) == HabitReducer(s, UpdateHabit(h))
  {
  }

  /** Each habit in the list has a streak record. */
  predicate EveryHabitTracked(s: AppState) {
    forall i :: 0 <= i < |s.habits| ==> s.habits[i].id in s.streakStates
  }

  /**
   * Updating or deleting habits and updating streak records keep every habit
   * tracked. (Deleting leaves the removed habit's record in the map.)
   */
  lemma EditsKeepHabitsTracked(s: AppState, a: Action)
    requires EveryHabitTracked(s)
    requires a.UpdateHabit? || a.DeleteHabit? || a.UpdateStreakState? || a.SetSelectedDate? ||
             a.SetLoading? || a.SetError? || a.OtherAction?
    ensures EveryHabitTracked(HabitReducer(s, a))
  {
    var t := HabitReducer(s, a);
    if a.DeleteHabit? {
      RemoveKeepsOthers(s.habits, a.id);
      forall i | 0 <= i < |t.habits| ensures t.habits[i].id in t.streakStates {
        assert t.habits[i] in s.habits;
      }
    }
  }
}

=== FILE: habit_form.dfy ===
/**
 * The habit-creation form: its defaults, day toggling, validation, and the
 * submit step that saves the habit and seeds its streak record in the store.
 */
module HabitForm {
  import opened Options
  import opened Model
  import opened HabitContext

  datatype FormData = FormData(
    name: string,
    targetValue: int,
    unit: string,
    schedule: seq<string>,
    timeWindow: string,
    graceCredits: int)

  /** Grace credits a new habit gets unless the user changes it. */
  const DefaultGraceCredits := 2

  /** The form as first shown: Monday to Friday, target 1, two grace credits. */
  function DefaultForm(): (f: FormData)
    ensures f.schedule == ["Mon", "Tue", "Wed", "Thu", "Fri"]
    ensures f.targetValue == 1 && f.graceCredits == DefaultGraceCredits
    ensures f.name == "" && f.unit == "" && f.timeWindow == "any"
  {
    FormData("", 1, "", ["Mon", "Tue", "Wed", "Thu", "Fri"], "any", DefaultGraceCredits)
  }

  // ---------------------------------------------------------------- trim

  /** ECMAScript white space and line terminators, the characters `trim` strips. */
  predicate IsJsSpace(c: char) {
    var n := c as int;
    n == 0x09 || n == 0x0A || n == 0x0B || n == 0x0C || n == 0x0D || n == 0x20 || n == 0xA0 ||
    n == 0x1680 || (0x2000 <= n <= 0x200A) || n == 0x2028 || n == 0x2029 || n == 0x202F ||
    n == 0x205F || n == 0x3000 || n == 0xFEFF
  }

  function TrimStart(s: string): (r: string)
    ensures |r| <= |s| && r == s[|s| - |r|..]
    ensures r != [] ==> !IsJsSpace(r[0])
    ensures forall i :: 0 <= i < |s| - |r| ==> IsJsSpace(s[i])
    decreases |s|
  {
    if s != [] && IsJsSpace(s[0]) then TrimStart(s[1..]) else s
  }

  function TrimEnd(s: string): (r: string)
    ensures |r| <= |s| && r == s[..|r|]
    ensures r != [] ==> !IsJsSpace(r[|r| - 1])
    ensures forall i :: |r| <= i < |s| ==> IsJsSpace(s[i])
    decreases |s|
  {
    if s != [] && IsJsSpace(s[|s| - 1]) then TrimEnd(s[..|s| - 1]) else s
  }

  /** `r` is the stretch of `s` starting at `a`, and everything of `s` around it is white space. */
  predicate SurroundedBySpace(s: string, a: int, r: string) {
    && 0 <= a && a + |r| <= |s| && r == s[a..a + |r|]
    && (forall i :: 0 <= i < a ==> IsJsSpace(s[i]))
    && (forall i :: a + |r| <= i < |s| ==> IsJsSpace(s[i]))
  }

  /** `String.prototype.trim`: white space removed from both ends. */
  function Trim(s: string): (r: string)
    ensures r != [] ==> !IsJsSpace(r[0]) && !IsJsSpace(r[|r| - 1])
    ensures exists a :: SurroundedBySpace(s, a, r)
  {
    var t := TrimStart(s);
    var r := TrimEnd(t);
    SliceOfSuffix(s, t, r);
    assert SurroundedBySpace(s, |s| - |t|, r);
    r
  }

  /** A prefix of a suffix of `s` is a slice of `s`, and what follows it in `s` is what followed it in the suffix. */
  lemma SliceOfSuffix(s: string, t: string, r: string)
    requires |t| <= |s| && t == s[|s| - |t|..]
    requires |r| <= |t| && r == t[..|r|]
    ensures r == s[|s| - |t|..|s| - |t| + |r|]
    ensures forall i :: |s| - |t| + |r| <= i < |s| ==> s[i] == t[i - (|s| - |t|)]
  {
  }

  /** A string trims to nothing exactly when it is all white space. */
  lemma TrimEmptyIffBlank(s: string)
    ensures Trim(s) == [] <==> forall i :: 0 <= i < |s| ==> IsJsSpace(s[i])
  {
    var a := TrimStart(s);
    if Trim(s) == [] {
      assert a == [];
    } else {
      assert a != [];
      assert !IsJsSpace(a[0]);
      assert s[|s| - |a|] == a[0];
    }
  }

  // ---------------------------------------------------------------- validation

  datatype Field = NameField | TargetField | UnitField | ScheduleField | SubmitField

  /** The message `validate` shows under a failing field. */
  function Message(k: Field): string {
    match k
    case NameField => "Name is required"
    case TargetField => "Target must be at least 1"
    case UnitField => "Unit is required"
    case ScheduleField => "Select at least one day"
    case SubmitField => "Failed to create habit. Please try again."
  }

  /** Whether field `k` fails its check; the submit slot is never a field check. */
  predicate Fails(f: FormData, k: Field) {
    match k
    case NameField => Trim(f.name) == []
    case TargetField => f.targetValue < 1
    case UnitField => Trim(f.unit) == []
    case ScheduleField => f.schedule == []
    case SubmitField => false
  }

  /** `validate`: the message for each field that fails its check. */
  function Validate(f: FormData): (errors: map<Field, string>)
    ensures NameField in errors <==> Trim(f.name) == []
    ensures TargetField in errors <==> f.targetValue < 1
    ensures UnitField in errors <==> Trim(f.unit) == []
    ensures ScheduleField in errors <==> f.schedule == []
    ensures SubmitField !in errors
    ensures forall k :: k in errors ==> errors[k] == Message(k)
  {
    map k: Field | Fails(f, k) :: Message(k)
  }

  /** The form is accepted exactly when name and unit have visible text, the target is positive and some day is chosen. */
  lemma ValidIff(f: FormData)
    ensures Validate(f) == map[] <==>
              && (exists i :: 0 <= i < |f.name| && !IsJsSpace(f.name[i]))
              && f.targetValue >= 1
              && (exists i :: 0 <= i < |f.unit| && !IsJsSpace(f.unit[i]))
              && f.schedule != []
  {
    TrimEmptyIffBlank(f.name);
    TrimEmptyIffBlank(f.unit);
    if Validate(f) != map[] {
      var k :| k in Validate(f);
    }
  }

  lemma TrimOfEmpty()
    ensures Trim("") == []
  {
    assert TrimStart("") == [];
  }

  /** The untouched form fails on the empty name and unit only. */
  lemma DefaultFormErrors()
    ensures Validate(DefaultForm()).Keys == {NameField, UnitField}
  {
    var f := DefaultForm();
    TrimOfEmpty();
    var keys := Validate(f).Keys;
    forall k: Field ensures k in keys <==> k in {NameField, UnitField} {
      assert k in keys <==> Fails(f, k);
    }
  }

  // ---------------------------------------------------------------- days

  /** `toggleDay`: drop `day` if chosen (every copy), else append it. */
  function ToggleDay(schedule: seq<string>, day: string): (r: seq<string>)
    ensures day in schedule ==> day !in r && forall d :: d in r <==> d in schedule && d != day
    ensures day in schedule ==> multiset(r) == multiset(schedule)[day := 0]
    ensures day !in schedule ==> r == schedule + [day]
  {
    if day in schedule then Without(schedule, day) else schedule + [day]
  }

  function Without(s: seq<string>, day: string): (r: seq<string>)
    ensures forall d :: d in r <==> d in s && d != day
    ensures multiset(r) == multiset(s)[day := 0]
    ensures |r| <= |s|
    ensures NoDuplicates(s) ==> NoDuplicates(r)
    decreases |s|
  {
    if s == [] then []
    else
      var rest := Without(s[1..], day);
      assert s == [s[0]] + s[1..];
      if s[0] == day then rest
      else
        assert s[0] !in s[1..] ==> s[0] !in rest;
        [s[0]] + rest
  }

  /** Dropping a day distributes over concatenation, so the kept days stay in their order. */
  lemma {:induction false} WithoutAppend(a: seq<string>, b: seq<string>, day: string)
    ensures Without(a + b, day) == Without(a, day) + Without(b, day)
    decreases |a|
  {
    if a == [] {
      assert a + b == b;
    } else {
      assert (a + b)[0] == a[0] && (a + b)[1..] == a[1..] + b;
      WithoutAppend(a[1..], b, day);
    }
  }

  predicate NoDuplicates(s: seq<string>) {
    forall i, j :: 0 <= i < j < |s| ==> s[i] != s[j]
  }

  /** Toggling never introduces a repeated day. */
  lemma ToggleKeepsNoDuplicates(schedule: seq<string>, day: string)
    requires NoDuplicates(schedule)
    ensures NoDuplicates(ToggleDay(schedule, day))
  {
  }

  /** Toggling the same day twice gives back the same set of days. */
  lemma ToggleTwiceRestores(schedule: seq<string>, day: string)
    ensures forall d :: d in ToggleDay(ToggleDay(schedule, day), day) <==> d in schedule
  {
    var once := ToggleDay(schedule, day);
    if day !in schedule {
      assert day in once;
    }
  }

  /** On a repetition-free schedule the round trip from an unchosen day is exact. */
  lemma ToggleOnThenOff(schedule: seq<string>, day: string)
    requires day !in schedule
    ensures ToggleDay(ToggleDay(schedule, day), day) == schedule
  {
    WithoutAppendAbsent(schedule, day);
  }

  lemma {:induction false} WithoutAppendAbsent(s: seq<string>, day: string)
    requires day !in s
    ensures Without(s + [day], day) == s
    decreases |s|
  {
    if s == [] {
      assert [day][1..] == [];
    } else {
      assert (s + [day])[1..] == s[1..] + [day];
      WithoutAppendAbsent(s[1..], day);
      assert s == [s[0]] + s[1..];
    }
  }

  // ---------------------------------------------------------------- submit

  /** The habit `handleSubmit` builds: the form's fields as entered, a fresh id and a creation time. */
  function NewHabit(f: FormData, id: string, createdAt: string): Habit {
    Habit(id, f.name, f.targetValue, f.unit, f.schedule, f.timeWindow, f.graceCredits, createdAt)
  }

  /** What the submit leaves behind: the field errors shown, the store, and whether it navigated home. */
  datatype SubmitResult = SubmitResult(errors: map<Field, string>, store: AppState, navigated: bool)

  /**
   * `handleSubmit`: an invalid form only shows its errors; otherwise the habit
   * is saved (`saved` is whether storage accepted it), added to the store and
   * given its initial streak record.
   */
  function HandleSubmit(f: FormData, id: string, createdAt: string, saved: bool, store: AppState): (r: SubmitResult)
    ensures Validate(f) != map[] ==> r == SubmitResult(Validate(f), store, false)
    ensures Validate(f) == map[] && !saved ==>
              r == SubmitResult(map[SubmitField := Message(SubmitField)], store, false)
    ensures Validate(f) == map[] && saved ==>
              && r.navigated
              && r.errors == map[]
              && r.store == store.(habits := store.habits + [NewHabit(f, id, createdAt)],
                                   streakStates := store.streakStates[id := InitialStreakState(NewHabit(f, id, createdAt))])
  {
    var errors := Validate(f);
    if errors != map[] then SubmitResult(errors, store, false)
    else if !saved then SubmitResult(map[SubmitField := Message(SubmitField)], store, false)
    else
      var h := NewHabit(f, id, createdAt);
      var s1 := HabitReducer(store, AddHabit(h));
      var s2 := HabitReducer(s1, UpdateStreakState(InitialStreakState(h)));
      UpdateStreakStateIsMapUpdate(s1, InitialStreakState(h));
      SubmitResult(errors, s2, true)
  }

  /** A successful submit keeps every habit tracked and the new record starts clean. */
  lemma SubmitKeepsHabitsTracked(f: FormData, id: string, createdAt: string, store: AppState)
    requires EveryHabitTracked(store) && Validate(f) == map[]
    ensures var r := HandleSubmit(f, id, createdAt, true, store);
            && EveryHabitTracked(r.store)
            && r.store.streakStates[id].currentStreak == 0
            && r.store.streakStates[id].graceRemaining == f.graceCredits
            && r.store.streakStates[id].lastCompleted.None?
  {
    var r := HandleSubmit(f, id, createdAt, true, store);
    forall i | 0 <= i < |r.store.habits| ensures r.store.habits[i].id in r.store.streakStates {
      if i < |store.habits| {
        assert r.store.habits[i] == store.habits[i];
      }
    }
  }
}

=== FILE: js_math.dfy ===
/**
 * The two JavaScript rounding helpers the tracker uses, on exact fractions
 * `num / den` with a positive denominator.
 */
module JsMath {

  /** `Math.round(num / den)`: the nearest integer, halves rounded up. */
  function Round(num: int, den: int): (r: int)
    requires den > 0
    ensures 2 * den * r <= 2 * num + den < 2 * den * r + 2 * den
  {
    (2 * num + den) / (2 * den)
  }

  /** `Math.ceil(num / den)`: the least integer at or above the fraction. */
  function Ceil(num: int, den: int): (r: int)
    requires den > 0
    ensures den * (r - 1) < num <= den * r
  {
    (num + den - 1) / den
  }

  /** Rounding is monotone: a larger fraction never rounds lower. */
  lemma RoundMonotone(a: int, b: int, den: int)
    requires den > 0 && a <= b
    ensures Round(a, den) <= Round(b, den)
  {
    var ra, rb := Round(a, den), Round(b, den);
    if ra > rb {
      assert 2 * den * rb + 2 * den <= 2 * den * ra by {
        assert rb + 1 <= ra;
        MulLeft(2 * den, rb + 1, ra);
      }
    }
  }

  /** A whole number of denominators rounds to itself. */
  lemma RoundWhole(k: int, den: int)
    requires den > 0
    ensures Round(k * den, den) == k
  {
    var r := Round(k * den, den);
    assert (2 * den) * r < (2 * den) * (k + 1) by {
      assert 2 * den * r <= 2 * (k * den) + den;
      assert (2 * den) * (k + 1) == 2 * (k * den) + 2 * den;
    }
    MulCancelLt(2 * den, r, k + 1);
    assert (2 * den) * (k - 1) < (2 * den) * r by {
      assert 2 * (k * den) + den < 2 * den * r + 2 * den;
      assert (2 * den) * (k - 1) == 2 * (k * den) - 2 * den;
    }
    MulCancelLt(2 * den, k - 1, r);
  }

  lemma MulLeft(k: int, x: int, y: int)
    requires k >= 0 && x <= y
    ensures k * x <= k * y
  {
  }

  lemma MulCancelLt(k: int, x: int, y: int)
    requires k > 0 && k * x < k * y
    ensures x < y
  {
    if x >= y {
      MulLeft(k, y, x);
    }
  }
}

=== FILE: model.dfy ===
/**
 * The records the habit tracker stores and passes between its parts.
 * Dates are day numbers: day 0 is 1970-01-01, so one more is the next
 * calendar day. Identifiers are the uuid strings the source generates.
 */
module Model {
  import opened Options

  /** A day number (days since 1970-01-01, local calendar). */
  type Day = int

  /** A habit as the creation form saves it. */
  datatype Habit = Habit(
    id: string,
    name: string,
    targetValue: int,
    unit: string,
    schedule: seq<string>,   // weekday tokens "Sun" .. "Sat"
    timeWindow: string,
    graceCredits: int,
    createdAt: string)

  /** The per-habit streak record. */
  datatype StreakState = StreakState(
    habitId: string,
    currentStreak: nat,
    graceRemaining: int,
    lastCompleted: Option<Day>)

  /** The amount logged for one habit on one day; `completed` is only a cache. */
  datatype DailyProgress = DailyProgress(
    habitId: string,
    date: Day,
    progress: nat,
    completed: bool)

  /**
   * What the streak engine keeps true of a habit's record: it belongs to the
   * habit and its grace lies between none and the habit's allowance.
   */
  predicate GraceWithin(h: Habit, s: StreakState) {
    s.habitId == h.id && 0 <= s.graceRemaining <= h.graceCredits
  }

  /** The streak record a newly created habit starts with. */
  function InitialStreakState(h: Habit): (s: StreakState)
    ensures h.graceCredits >= 0 ==> GraceWithin(h, s)
    ensures s.currentStreak == 0 && s.lastCompleted == None
    ensures s.graceRemaining == h.graceCredits
  {
    StreakState(h.id, 0, h.graceCredits, None)
  }
}

=== FILE: options.dfy ===
/** The optional-value type used wherever the source has `null` or `undefined`. */
module Options {

  datatype Option<+T> = None | Some(value: T) {

    /** The wrapped value, or `default` when there is none. */
    function GetOr(default: T): T {
      match this
      case Some(v) => v
      case None => default
    }
  }
}

=== FILE: signup.dfy ===
/**
 * The sign-up form's submit handler: the two password checks made before
 * registering, and the message chosen when the server refuses.
 */
module Signup {
  import opened Options

  datatype SignupForm = SignupForm(username: string, email: string, password: string, password2: string)

  // ---------------------------------------------------------------- checks before registering

  /** The `length` of a JavaScript string: code points above U+FFFF take two UTF-16 units. */
  function Utf16Length(s: string): (n: nat)
    ensures |s| <= n <= 2 * |s|
    ensures n == |s| <==> forall i :: 0 <= i < |s| ==> s[i] as int <= 0xFFFF
    decreases |s|
  {
    if s == [] then 0
    else (if s[0] as int > 0xFFFF then 2 else 1) + Utf16Length(s[1..])
  }

  const MinPasswordLength := 8
  const MismatchMessage := "Passwords don't match"
  const TooShortMessage := "Password must be at least 8 characters"
  const FallbackMessage := "Registration failed. Please try again."

  /** The message the checks before registering raise, if any; the match is tested first. */
  function PreCheck(f: SignupForm): (e: Option<string>)
    ensures f.password != f.password2 ==> e == Some(MismatchMessage)
    ensures f.password == f.password2 ==>
              (e == Some(TooShortMessage) <==> Utf16Length(f.password) < MinPasswordLength)
    ensures e.None? <==> f.password == f.password2 && Utf16Length(f.password) >= MinPasswordLength
  {
    if f.password != f.password2 then Some(MismatchMessage)
    else if Utf16Length(f.password) < MinPasswordLength then Some(TooShortMessage)
    else None
  }

  /** Four characters outside the Basic Multilingual Plane already make a long-enough password. */
  lemma FourAstralCharsSuffice(f: SignupForm)
    requires f.password == f.password2 && |f.password| == 4
    requires forall i :: 0 <= i < 4 ==> f.password[i] as int > 0xFFFF
    ensures PreCheck(f).None?
  {
    var p := f.password;
    assert p[1..][1..][1..][1..] == [];
    assert Utf16Length(p[3..]) == 2 by { assert p[3..][0] == p[3] && p[3..][1..] == []; }
    assert Utf16Length(p[2..]) == 4 by { assert p[2..][0] == p[2] && p[2..][1..] == p[3..]; }
    assert Utf16Length(p[1..]) == 6 by { assert p[1..][0] == p[1] && p[1..][1..] == p[2..]; }
  }

  // ---------------------------------------------------------------- server errors

  /** A field of the error body: missing, a string, or an array of strings. */
  datatype FieldValue = Absent | Str(text: string) | Arr(items: seq<string>)

  /** JavaScript truthiness: an empty string is false, every array is true. */
  predicate Truthy(v: FieldValue) {
    (v.Str? && v.text != []) || v.Arr?
  }

  /** `v[0]` rendered in a template literal: a string yields its first character, an empty array `undefined`. */
  function FirstAsText(v: FieldValue): (t: string)
    requires Truthy(v)
    ensures v.Str? ==> t == [v.text[0]]
    ensures v.Arr? && v.items != [] ==> t == v.items[0]
    ensures v.Arr? && v.items == [] ==> t == "undefined"
  {
    if v.Str? then [v.text[0]]
    else if v.items != [] then v.items[0]
    else "undefined"
  }

  /**
   * `v[0]` as a JavaScript value: a string's first character, an array's first
   * item, or `undefined` (Absent) for an empty array.
   */
  function FirstValue(v: FieldValue): (e: FieldValue)
    requires Truthy(v)
    ensures e.Absent? <==> v == Arr([])
    ensures v.Str? ==> e == Str([v.text[0]])
    ensures v.Arr? && v.items != [] ==> e == Str(v.items[0])
  {
    if v.Str? then Str([v.text[0]])
    else if v.items != [] then Str(v.items[0])
    else Absent
  }

  function Concat(items: seq<string>): string {
    if items == [] then [] else items[0] + Concat(items[1..])
  }

  /** The banner after `setError(v)`: `None` when `v` is falsy, and an array shows its items run together. */
  function Banner(v: FieldValue): (b: Option<string>)
    ensures b.Some? <==> Truthy(v)
    ensures v.Str? && Truthy(v) ==> b == Some(v.text)
  {
    match v
    case Absent => None
    case Str(s) => if s == [] then None else Some(s)
    case Arr(items) => Some(Concat(items))
  }

  /** The error body: none, a plain string, or an object with the fields the server may fill. */
  datatype ResponseData =
    | NoData
    | TextData(text: string)
    | ObjectData(email: FieldValue, username: FieldValue, password: FieldValue,
                 detail: FieldValue, nonFieldErrors: FieldValue, json: string)

  /** A failed `register` call: the response body if any, and the error's own message. */
  datatype RegisterError = RegisterError(data: ResponseData, message: string)

  function HasData(d: ResponseData): bool {
    d.ObjectData? || (d.TextData? && d.text != [])
  }

  /** The banner for a refused registration, walking the fields in their fixed order. */
  function ErrorBanner(err: RegisterError): (b: Option<string>)
    ensures !HasData(err.data) && err.message != [] ==> b == Some(err.message)
    ensures !HasData(err.data) && err.message == [] ==> b == Some(FallbackMessage)
    ensures err.data.TextData? && err.data.text != [] ==> b == Some(err.data.text)
  {
    var d := err.data;
    if HasData(d) then
      if d.TextData? then Some(d.text)
      else if Truthy(d.email) then Some("Email: " + FirstAsText(d.email))
      else if Truthy(d.username) then Some("Username: " + FirstAsText(d.username))
      else if Truthy(d.password) then Some("Password: " + FirstAsText(d.password))
      else if Truthy(d.detail) then Banner(d.detail)
      else if Truthy(d.nonFieldErrors) then Banner(FirstValue(d.nonFieldErrors))
      else Some(d.json)
    else if err.message != [] then Some(err.message)
    else Some(FallbackMessage)
  }

  /** A field error wins over every field after it: the banner names the first filled field. */
  lemma FirstFilledFieldWins(err: RegisterError)
    requires err.data.ObjectData?
    ensures var d := err.data;
            && (Truthy(d.email) ==> ErrorBanner(err) == Some("Email: " + FirstAsText(d.email)))
            && (!Truthy(d.email) && Truthy(d.username) ==>
                  ErrorBanner(err) == Some("Username: " + FirstAsText(d.username)))
            && (!Truthy(d.email) && !Truthy(d.username) && Truthy(d.password) ==>
                  ErrorBanner(err) == Some("Password: " + FirstAsText(d.password)))
            && (!Truthy(d.email) && !Truthy(d.username) && !Truthy(d.password) && Truthy(d.detail) ==>
                  ErrorBanner(err) == Banner(d.detail))
            && ((!Truthy(d.email) && !Truthy(d.username) && !Truthy(d.password) && !Truthy(d.detail) &&
                 Truthy(d.nonFieldErrors)) ==> ErrorBanner(err) == Banner(FirstValue(d.nonFieldErrors)))
            && ((!Truthy(d.email) && !Truthy(d.username) && !Truthy(d.password) && !Truthy(d.detail) &&
                 !Truthy(d.nonFieldErrors)) ==> ErrorBanner(err) == Some(d.json))
  {
  }

  /**
   * A refused registration always shows a banner except in one case: the body's
   * only filled field is a `non_field_errors` array whose first element is
   * falsy, that is `undefined` (an empty array) or the empty string.
   */
  lemma BannerMissingOnlyForFalsyNonFieldError(err: RegisterError)
    ensures ErrorBanner(err).None? <==>
              && err.data.ObjectData?
              && !Truthy(err.data.email) && !Truthy(err.data.username) && !Truthy(err.data.password)
              && !Truthy(err.data.detail) && err.data.nonFieldErrors.Arr?
              && (err.data.nonFieldErrors.items == [] || err.data.nonFieldErrors.items[0] == "")
  {
  }

  // ---------------------------------------------------------------- the whole submit

  /** The outcome of `register`: success, or the error it throws. */
  datatype Attempt = Registered | Refused(err: RegisterError)

  /** What a submit leaves: whether `register` was called, whether the app navigated home, and the banner. */
  datatype Outcome = Outcome(attempted: bool, navigated: bool, banner: Option<string>)

  /** `handleSubmit`; `attempt` is what `register` would do if it were called. */
  function HandleSubmit(f: SignupForm, attempt: Attempt): (o: Outcome)
    ensures o.attempted <==> PreCheck(f).None?
    ensures !o.attempted ==> !o.navigated && o.banner == PreCheck(f)
    ensures o.navigated <==> o.attempted && attempt.Registered?
    ensures o.attempted && attempt.Refused? ==> o.banner == ErrorBanner(attempt.err)
    ensures o.navigated ==> o.banner.None?
  {
    match PreCheck(f)
    case Some(e) => Outcome(false, false, Some(e))
    case None =>
      match attempt
      case Registered => Outcome(true, true, None)
      case Refused(err) => Outcome(true, false, ErrorBanner(err))
  }

  /** Mismatched passwords are reported even when the password is also too short, and nothing is sent. */
  lemma MismatchReportedFirst(f: SignupForm, attempt: Attempt)
    requires f.password != f.password2
    ensures HandleSubmit(f, attempt) == Outcome(false, false, Some(MismatchMessage))
  {
  }
}

=== FILE: streak_engine.dfy ===
/**
 * The per-habit streak state machine: one transition per due day, a batch
 * that runs the transition for every habit, and the derived status label
 * and health score. Persistence is a map from habit id to streak record.
 */
module StreakEngine {
  import opened Options
  import opened Model
  import opened DateUtils
  import JsMath

  /**
   * Whether the logged progress completes the habit. The stored `completed`
   * flag is ignored: completion is recomputed from the amount.
   */
  predicate IsCompleted(h: Habit, p: Option<DailyProgress>): (c: bool)
    ensures p.None? ==> !c
    ensures p.Some? && h.targetValue <= 0 ==> c
    ensures p.Some? ==> (c <==> p.value.progress >= h.targetValue)
  {
    p.Some? && p.value.progress >= h.targetValue
  }

  /** Halving with the fraction dropped: `Math.floor(n * 0.5)`. */
  function Decay(n: nat): (r: nat)
    ensures r + r <= n <= r + r + 1
  {
    n / 2
  }

  /** The transition for one day, given that the habit has a streak record. */
  function Advance(h: Habit, s: StreakState, date: Day, p: Option<DailyProgress>): (t: StreakState)
    ensures t.habitId == s.habitId
    ensures !IsScheduledForDay(h.schedule, date) ==> t == s
    ensures IsScheduledForDay(h.schedule, date) && IsCompleted(h, p) ==>
              t == s.(currentStreak := s.currentStreak + 1, lastCompleted := Some(date))
    ensures IsScheduledForDay(h.schedule, date) && !IsCompleted(h, p) && s.graceRemaining > 0 ==>
              t == s.(graceRemaining := s.graceRemaining - 1)
    ensures IsScheduledForDay(h.schedule, date) && !IsCompleted(h, p) && s.graceRemaining <= 0 ==>
              t.graceRemaining == s.graceRemaining && t.lastCompleted == s.lastCompleted &&
              t.currentStreak + t.currentStreak <= s.currentStreak <= t.currentStreak + t.currentStreak + 1
  {
    if !IsScheduledForDay(h.schedule, date) then s
    else if IsCompleted(h, p) then
      s.(currentStreak := s.currentStreak + 1, lastCompleted := Some(date))
    else if s.graceRemaining > 0 then
      s.(graceRemaining := s.graceRemaining - 1)
    else
      s.(currentStreak := Decay(s.currentStreak))
  }

  /**
   * `processStreakUpdate` without its storage calls: `stored` is the record
   * read for the habit and `p` the progress logged on `date`. No record means
   * no result (the not-found outcome).
   */
  function ProcessStreakUpdate(h: Habit, stored: Option<StreakState>, date: Day, p: Option<DailyProgress>): (r: Option<StreakState>)
    ensures r.None? <==> stored.None?
    ensures stored.Some? ==> r == Some(Advance(h, stored.value, date, p))
  {
    match stored
    case None => None
    case Some(s) => Some(Advance(h, s, date, p))
  }

  /** A missed due day never raises the streak, and a kept grace credit keeps it exactly. */
  lemma MissNeverRaisesStreak(h: Habit, s: StreakState, date: Day, p: Option<DailyProgress>)
    requires !IsCompleted(h, p)
    ensures Advance(h, s, date, p).currentStreak <= s.currentStreak
    ensures Advance(h, s, date, p).lastCompleted == s.lastCompleted
  {
  }

  /** One transition keeps grace within the habit's allowance and never adds grace. */
  lemma AdvanceKeepsGraceWithin(h: Habit, s: StreakState, date: Day, p: Option<DailyProgress>)
    requires GraceWithin(h, s)
    ensures GraceWithin(h, Advance(h, s, date, p))
    ensures Advance(h, s, date, p).graceRemaining <= s.graceRemaining
    ensures Advance(h, s, date, p).currentStreak <= s.currentStreak + 1
  {
  }

  /** One logged day: its date and the progress record read for it, if any. */
  datatype DayLog = DayLog(date: Day, progress: Option<DailyProgress>)

  /** Replays the transition over days in the order given (callers give date order). */
  function Replay(h: Habit, s: StreakState, log: seq<DayLog>): (r: StreakState)
    ensures r.habitId == s.habitId
    ensures r.lastCompleted != s.lastCompleted ==> exists i :: 0 <= i < |log| && r.lastCompleted == Some(log[i].date)
    decreases |log|
  {
    if log == [] then s
    else Replay(h, Advance(h, s, log[0].date, log[0].progress), log[1..])
  }

  /**
   * Over any run of days the grace stays within the allowance and never grows,
   * and the streak grows by at most one per day.
   */
  lemma {:induction false} ReplayKeepsGraceWithin(h: Habit, s: StreakState, log: seq<DayLog>)
    requires GraceWithin(h, s)
    ensures GraceWithin(h, Replay(h, s, log))
    ensures Replay(h, s, log).graceRemaining <= s.graceRemaining
    ensures Replay(h, s, log).currentStreak <= s.currentStreak + |log|
    decreases |log|
  {
    if log != [] {
      var s1 := Advance(h, s, log[0].date, log[0].progress);
      AdvanceKeepsGraceWithin(h, s, log[0].date, log[0].progress);
      ReplayKeepsGraceWithin(h, s1, log[1..]);
    }
  }

  /** Days on which the habit is not due leave a replay's outcome untouched. */
  lemma {:induction false} ReplayOfRestDays(h: Habit, s: StreakState, log: seq<DayLog>)
    requires forall i :: 0 <= i < |log| ==> !IsScheduledForDay(h.schedule, log[i].date)
    ensures Replay(h, s, log) == s
    decreases |log|
  {
    if log != [] {
      ReplayOfRestDays(h, s, log[1..]);
    }
  }

  /** A run of completed due days adds exactly its length to the streak. */
  lemma {:induction false} ReplayOfCompletedDays(h: Habit, s: StreakState, log: seq<DayLog>)
    requires forall i :: 0 <= i < |log| ==>
               IsScheduledForDay(h.schedule, log[i].date) && IsCompleted(h, log[i].progress)
    ensures Replay(h, s, log).currentStreak == s.currentStreak + |log|
    ensures Replay(h, s, log).graceRemaining == s.graceRemaining
    ensures log != [] ==> Replay(h, s, log).lastCompleted == Some(log[|log| - 1].date)
    decreases |log|
  {
    if log != [] {
      var s1 := Advance(h, s, log[0].date, log[0].progress);
      ReplayOfCompletedDays(h, s1, log[1..]);
      if |log| == 1 {
        assert Replay(h, s1, log[1..]) == s1;
      } else {
        assert log[1..][|log[1..]| - 1] == log[|log| - 1];
      }
    }
  }

  /**
   * A habit due every day, target 8, two grace credits and a streak of 10,
   * missed five days in a row: grace absorbs two misses, then the streak
   * halves 10 -> 5 -> 2 -> 1.
   */
  lemma FiveMissesScenario(h: Habit, s: StreakState, days: seq<Day>)
    requires h.targetValue == 8 && h.graceCredits == 2
    requires h.schedule == ["Sun", "Mon", "Tue", "Wed", "Thu", "Fri", "Sat"]
    requires s.currentStreak == 10 && s.graceRemaining == 2
    requires |days| == 5
    ensures var s1 := Advance(h, s, days[0], None);
            var s2 := Advance(h, s1, days[1], None);
            var s3 := Advance(h, s2, days[2], None);
            var s4 := Advance(h, s3, days[3], None);
            var s5 := Advance(h, s4, days[4], None);
            s1.currentStreak == 10 && s1.graceRemaining == 1 &&
            s2.currentStreak == 10 && s2.graceRemaining == 0 &&
            s3.currentStreak == 5 && s3.graceRemaining == 0 &&
            s4.currentStreak == 2 && s4.graceRemaining == 0 &&
            s5.currentStreak == 1 && s5.graceRemaining == 0
  {
    forall d: Day ensures IsScheduledForDay(h.schedule, d) {
      var w := WeekdayOf(d);
      assert h.schedule[w] == DayToken(w);
    }
  }

  /** What `checkAndUpdateStreaks` reports for one habit. */
  datatype HabitStreak = HabitStreak(habitId: string, streak: Option<StreakState>)

  /** The batch's report together with the streak store it leaves behind. */
  datatype Batch = Batch(results: seq<HabitStreak>, store: map<string, StreakState>)

  function Lookup<V>(m: map<string, V>, k: string): Option<V> {
    if k in m then Some(m[k]) else None
  }

  /**
   * `checkAndUpdateStreaks`: a fold over the habits in order, each reading the
   * store as the previous ones left it and writing back its new record.
   * `logged` is the progress recorded on `date`, by habit id.
   */
  function CheckAndUpdateStreaks(habits: seq<Habit>, date: Day, store: map<string, StreakState>,
                                 logged: map<string, DailyProgress>): (b: Batch)
    ensures |b.results| == |habits|
    ensures forall i :: 0 <= i < |habits| ==> b.results[i].habitId == habits[i].id
    ensures b.store.Keys == store.Keys
    ensures forall k :: k in store && (forall i :: 0 <= i < |habits| ==> habits[i].id != k) ==>
              b.store[k] == store[k]
    decreases |habits|
  {
    if habits == [] then Batch([], store)
    else
      var h := habits[0];
      var r := ProcessStreakUpdate(h, Lookup(store, h.id), date, Lookup(logged, h.id));
      var store' := if r.Some? then store[h.id := r.value] else store;
      var rest := CheckAndUpdateStreaks(habits[1..], date, store', logged);
      assert forall i :: 1 <= i < |habits| ==> habits[i] == habits[1..][i - 1];
      Batch([HabitStreak(h.id, r)] + rest.results, rest.store)
  }

  predicate DistinctIds(habits: seq<Habit>) {
    forall i, j :: 0 <= i < j < |habits| ==> habits[i].id != habits[j].id
  }

  /** The first habit's step of the batch, with the rest run on the store it leaves. */
  function FirstStore(habits: seq<Habit>, date: Day, store: map<string, StreakState>,
                      logged: map<string, DailyProgress>): map<string, StreakState>
    requires habits != []
  {
    var h := habits[0];
    var r := ProcessStreakUpdate(h, Lookup(store, h.id), date, Lookup(logged, h.id));
    if r.Some? then store[h.id := r.value] else store
  }

  /** One step of the fold: the head's report, then the batch over the tail. */
  lemma BatchStep(habits: seq<Habit>, date: Day, store: map<string, StreakState>,
                  logged: map<string, DailyProgress>)
    requires habits != []
    ensures var b := CheckAndUpdateStreaks(habits, date, store, logged);
            var rest := CheckAndUpdateStreaks(habits[1..], date, FirstStore(habits, date, store, logged), logged);
            && b.results[0].streak == ProcessStreakUpdate(habits[0], Lookup(store, habits[0].id), date,
                                                          Lookup(logged, habits[0].id))
            && (forall i :: 1 <= i < |habits| ==> b.results[i] == rest.results[i - 1])
            && b.store == rest.store
  {
    var h := habits[0];
    var r := ProcessStreakUpdate(h, Lookup(store, h.id), date, Lookup(logged, h.id));
    var rest := CheckAndUpdateStreaks(habits[1..], date, FirstStore(habits, date, store, logged), logged);
    assert CheckAndUpdateStreaks(habits, date, store, logged) == Batch([HabitStreak(h.id, r)] + rest.results, rest.store);
  }

  /** With distinct habit ids, the store the batch leaves holds every record it reports. */
  lemma {:induction false} BatchWritesEachRecord(habits: seq<Habit>, date: Day, store: map<string, StreakState>,
                                                 logged: map<string, DailyProgress>)
    requires DistinctIds(habits)
    ensures var b := CheckAndUpdateStreaks(habits, date, store, logged);
            forall i :: 0 <= i < |habits| && b.results[i].streak.Some? ==>
              habits[i].id in b.store && b.store[habits[i].id] == b.results[i].streak.value
    decreases |habits|
  {
    if habits != [] {
      var store' := FirstStore(habits, date, store, logged);
      var b := CheckAndUpdateStreaks(habits, date, store, logged);
      var rest := CheckAndUpdateStreaks(habits[1..], date, store', logged);
      BatchStep(habits, date, store, logged);
      BatchWritesEachRecord(habits[1..], date, store', logged);
      if b.results[0].streak.Some? {
        HeadRecordSurvives(habits, date, store', logged);
      }
      forall i | 1 <= i < |habits| && b.results[i].streak.Some?
        ensures habits[i].id in b.store && b.store[habits[i].id] == b.results[i].streak.value
      {
        assert habits[i] == habits[1..][i - 1];
      }
    }
  }

  /** The batch over the tail never rewrites the head's record when the ids are distinct. */
  lemma HeadRecordSurvives(habits: seq<Habit>, date: Day, store': map<string, StreakState>,
                           logged: map<string, DailyProgress>)
    requires habits != [] && DistinctIds(habits) && habits[0].id in store'
    ensures var rest := CheckAndUpdateStreaks(habits[1..], date, store', logged);
            habits[0].id in rest.store && rest.store[habits[0].id] == store'[habits[0].id]
  {
    forall i | 0 <= i < |habits[1..]|
      ensures habits[1..][i].id != habits[0].id
    {
      assert habits[1..][i] == habits[i + 1];
    }
  }

  /**
   * With distinct habit ids the batch gives each habit exactly the single-habit
   * transition from the store as it was before the batch.
   */
  lemma {:induction false} BatchIsPerHabit(habits: seq<Habit>, date: Day, store: map<string, StreakState>,
                                           logged: map<string, DailyProgress>)
    requires DistinctIds(habits)
    ensures forall i :: 0 <= i < |habits| ==>
              CheckAndUpdateStreaks(habits, date, store, logged).results[i].streak ==
              ProcessStreakUpdate(habits[i], Lookup(store, habits[i].id), date, Lookup(logged, habits[i].id))
    decreases |habits|
  {
    if habits != [] {
      var h := habits[0];
      var r := ProcessStreakUpdate(h, Lookup(store, h.id), date, Lookup(logged, h.id));
      var store' := if r.Some? then store[h.id := r.value] else store;
      BatchIsPerHabit(habits[1..], date, store', logged);
      var results := CheckAndUpdateStreaks(habits, date, store, logged).results;
      var rest := CheckAndUpdateStreaks(habits[1..], date, store', logged).results;
      assert results == [HabitStreak(h.id, r)] + rest;
      forall i | 1 <= i < |habits|
        ensures results[i].streak ==
                ProcessStreakUpdate(habits[i], Lookup(store, habits[i].id), date, Lookup(logged, habits[i].id))
      {
        assert habits[i] == habits[1..][i - 1];
        assert habits[i].id != h.id;
        assert Lookup(store', habits[i].id) == Lookup(store, habits[i].id);
        assert results[i] == rest[i - 1];
      }
    }
  }

  /** `getStreakStatus`: the label shown next to a habit's streak. */
  datatype StreakStatus = New | Fragile | Strong | Building | Starting

  function GetStreakStatus(s: Option<StreakState>): (st: StreakStatus)
    ensures st == New <==> s.None?
    ensures st == Fragile <==> s.Some? && s.value.graceRemaining == 0
    ensures st == Strong <==> s.Some? && s.value.graceRemaining != 0 && s.value.currentStreak >= 30
    ensures st == Building <==> s.Some? && s.value.graceRemaining != 0 && 7 <= s.value.currentStreak < 30
    ensures st == Starting <==> s.Some? && s.value.graceRemaining != 0 && s.value.currentStreak < 7
  {
    match s
    case None => New
    case Some(t) =>
      if t.graceRemaining == 0 then Fragile
      else if t.currentStreak >= 30 then Strong
      else if t.currentStreak >= 7 then Building
      else Starting
  }

  /** Days of streak beyond which the health score stops growing. */
  const HealthStreakCap := 30

  /** The streak days that count towards health. */
  function CappedStreak(n: nat): (c: nat)
    ensures c <= HealthStreakCap && c <= n
    ensures n >= HealthStreakCap ==> c == HealthStreakCap
    ensures n < HealthStreakCap ==> c == n
  {
    if n < HealthStreakCap then n else HealthStreakCap
  }

  /**
   * `Math.round(g / M * 50 + capped / 30 * 50)` computed exactly: the sum is
   * the single fraction (150*g + 5*M*capped) / (3*M).
   */
  function HealthScore(g: int, graceMax: int, capped: nat): (r: int)
    requires graceMax != 0
    ensures graceMax > 0 ==>
              var num, den := 150 * g + 5 * graceMax * capped, 3 * graceMax;
              2 * den * r <= 2 * num + den < 2 * den * r + 2 * den
    ensures graceMax < 0 ==>
              var num, den := -(150 * g + 5 * graceMax * capped), -3 * graceMax;
              2 * den * r <= 2 * num + den < 2 * den * r + 2 * den
  {
    var num := 150 * g + 5 * graceMax * capped;
    if graceMax > 0 then JsMath.Round(num, 3 * graceMax) else JsMath.Round(-num, -3 * graceMax)
  }

  lemma HealthScoreBounds(g: int, graceMax: int, capped: nat)
    requires 0 <= g <= graceMax && graceMax > 0 && capped <= HealthStreakCap
    ensures 0 <= HealthScore(g, graceMax, capped) <= 100
  {
    var den := 3 * graceMax;
    var num := 150 * g + 5 * graceMax * capped;
    JsMath.MulLeft(5 * graceMax, capped, 30);
    JsMath.MulLeft(5 * graceMax, 0, capped);
    assert 0 <= num <= 100 * den;
    JsMath.RoundMonotone(0, num, den);
    JsMath.RoundMonotone(num, 100 * den, den);
    JsMath.RoundWhole(0, den);
    JsMath.RoundWhole(100, den);
  }

  /**
   * `calculateStreakHealth`: half the score from the share of grace left, half
   * from the streak (capped at 30 days), rounded. No record scores 0; a zero
   * allowance gives a non-finite number in the source, modelled as None.
   */
  function CalculateStreakHealth(s: Option<StreakState>, graceMax: int): (r: Option<int>)
    ensures s.None? ==> r == Some(0)
    ensures s.Some? ==> (r.None? <==> graceMax == 0)
    ensures s.Some? && 0 <= s.value.graceRemaining <= graceMax && graceMax > 0 ==>
              r.Some? && 0 <= r.value <= 100
  {
    match s
    case None => Some(0)
    case Some(t) =>
      if graceMax == 0 then None
      else
        var capped := CappedStreak(t.currentStreak);
        var score := HealthScore(t.graceRemaining, graceMax, capped);
        assert 0 <= t.graceRemaining <= graceMax ==> 0 <= score <= 100 by {
          if 0 <= t.graceRemaining <= graceMax {
            HealthScoreBounds(t.graceRemaining, graceMax, capped);
          }
        }
        Some(score)
  }

  /** Streak days past the cap add nothing to the health score. */
  lemma HealthStreakCapped(t: StreakState, graceMax: int)
    requires t.currentStreak >= HealthStreakCap
    ensures CalculateStreakHealth(Some(t), graceMax) ==
            CalculateStreakHealth(Some(t.(currentStreak := HealthStreakCap)), graceMax)
  {
  }

  /** A longer streak never lowers the health score (for a positive allowance). */
  lemma HealthMonotoneInStreak(t: StreakState, n: nat, graceMax: int)
    requires graceMax > 0 && t.currentStreak <= n
    ensures CalculateStreakHealth(Some(t), graceMax).value <=
            CalculateStreakHealth(Some(t.(currentStreak := n)), graceMax).value
  {
    var c1, c2 := CappedStreak(t.currentStreak), CappedStreak(n);
    JsMath.MulLeft(5 * graceMax, c1, c2);
    JsMath.RoundMonotone(150 * t.graceRemaining + 5 * graceMax * c1,
                         150 * t.graceRemaining + 5 * graceMax * c2, 3 * graceMax);
  }

  /** Full grace and a capped streak score 100; no grace and no streak score 0. */
  lemma HealthExtremes(t: StreakState, graceMax: int)
    requires graceMax > 0
    ensures t.graceRemaining == graceMax && t.currentStreak >= HealthStreakCap ==>
              CalculateStreakHealth(Some(t), graceMax) == Some(100)
    ensures t.graceRemaining == 0 && t.currentStreak == 0 ==>
              CalculateStreakHealth(Some(t), graceMax) == Some(0)
  {
    if t.graceRemaining == graceMax && t.currentStreak >= HealthStreakCap {
      assert 150 * graceMax + 5 * graceMax * 30 == 100 * (3 * graceMax);
      JsMath.RoundWhole(100, 3 * graceMax);
    }
    if t.graceRemaining == 0 && t.currentStreak == 0 {
      assert 150 * 0 + 5 * graceMax * 0 == 0 * (3 * graceMax);
      JsMath.RoundWhole(0, 3 * graceMax);
    }
  }
}
